=== FILE: README.md ===
# Postpartum health tracker — a Dafny model of its request handling and page logic

The system is a web app for people recovering after childbirth. Its Express
backend signs users in with Google and keeps three kinds of health readings:
blood pressure, SpO2 and weight. It hands out one-hour JSON Web Tokens, and
every metric route sits behind a bearer-token gate. A new reading is
announced on a socket (`io.emit`). The React front end has two pages with
real logic. The blood-pressure chart pages through readings ten at a time
and posts new ones. The medical-information page lists videos, with a search
box and a "Load More" button.

This project models that logic as pure Dafny functions and proves what the
code promises:

- `JsText` models the JavaScript conversions the code relies on:
  - `String(n)`;
  - `parseInt(s, 10)` and `parseInt(...) || d`;
  - `split(' ')[1]`;
  - validator.js `isNumeric`.
- `Users` models the user collection and its `findOne` / `findById`
  lookups.
- `Auth` models `requireAuth` and `createTokenForUser`.
- `Metrics` models:
  - request-body values and truthiness;
  - the express-validator chains and `validationResult`;
  - the documents each POST builds.
- `Listing` models `find().sort({ timestamp: 1 }).skip(k).limit(n)`.
- `Server` models every route handler as a function from world, request,
  oracles and store behaviour to a response and a new world. The world is
  the users, the three collections and the log of emitted socket events.
- `Passport` models the Google strategy's verify callback and
  `serializeUser` / `deserializeUser`.
- `BPChart` and `MedInfo` model the two components as state machines. Their
  inputs are clicks, edits and fetch replies. Their outputs are the new
  state and the requests the component starts.

Three oracles are parameters of the `Env` record:

- JWT signing and verification with the server secret;
- Google's `verifyIdToken`;
- `new Date(...)` and the clock.

Whether the store succeeds or throws on a request is a `Storage.Ops` input.
So every error path of the handlers is reachable in the model.

Facts about the system as written that the proofs establish:

- The chart can never show data from this backend:
  - `ChartRequestsUnauthorized`: its GET carries no `Authorization`
    header, so the backend answers 401.
  - `NonListReplyShowsError`: the backend's paginated reply is an object,
    not an array, so `data.map` throws and the chart goes to its error
    state.
  - `TotalPagesMatchServerPages` assumes the chart can read the
    `x-total-count` header. The backend's `cors()` setup
    (`backend/Server1.js:37-40`) exposes no headers, so a browser hides
    it from the chart. The page count is then NaN (`TotalPages(None)`).
    The Next button stays enabled, but `NextIgnoredWithoutCount` shows that
    a click does nothing, because `page < NaN` is false.
- `ErrorIsSticky`: nothing resets the chart's `error` state. While a fetch
  is in flight the chart still renders "Loading data..."
  (`BPChart.jsx:103` is checked before `:107`). Whenever it is not loading,
  it renders the error in place of its buttons.
- `StrategyCanDuplicateEmail`: the Google strategy looks users up by Google
  id only. A user who signed up through the token route can get a second
  record with the same email.
- `SchemeIgnored`, `BareTokenForbidden`: the gate never checks the
  `Bearer` word. A bare token without it is refused with 403.
- `SubmitThenNextRefetchesSubmitPage`: the submit handler refetches the
  page it was submitted from. A user who moves on before the post succeeds
  gets the older page's rows under the newer page number when that refetch
  is answered last.
- `NegativeLimitHasMoreOnEmpty`: `?limit=-5` on an empty collection
  answers 200 with no readings and `hasMore: true`, because
  `1 * -5 < 0`.
- `SearchResultsStayAfterClearing`: on the video page, clearing the search
  box leaves the old search results in the list, followed by the refetched
  page.

## Model

| member | source | states |
|---|---|---|
| JsText.IntToText | src/components/WidgetsPage/Trackers/BPChart.jsx:26 | the rendering of an integer in the query string is non-empty and starts with `-` exactly for negative numbers |
| JsText.NatToText | src/components/WidgetsPage/Trackers/BPChart.jsx:26 | a natural number is written as a non-empty run of decimal digits without a leading zero |
| JsText.NatToTextValue | src/components/WidgetsPage/Trackers/BPChart.jsx:26 | the digits written for a natural number read back as that number |
| JsText.ParseInt | backend/Server1.js:185-186 | `parseInt` gives NaN exactly when no digit follows the leading white space and optional sign |
| JsText.ParseIntOr | backend/Server1.js:185-186 | `parseInt(v, 10) \|\| d` is the parsed number unless the value is missing, NaN or zero, in which case it is `d`; with `d != 0` the result is never 0 |
| JsText.ParseIntOfText | backend/Server1.js:185-186 | `parseInt` reads back any integer the client wrote into the query, even when other text follows it |
| JsText.ParseIntOrOfText | backend/Server1.js:185-186 | `parseInt(String(n), 10) \|\| d` is `n` for every non-zero `n`, whatever the default |
| JsText.IntTextIsNumeric | backend/Server1.js:159-160 | every integer written out in decimal digits passes the `isNumeric` validator |
| JsText.NumberText | backend/Server1.js:159-160 | `String(x)` for an integer number: its decimal digits below 10^21 in magnitude, exponent form (`1e+21`) from there on, signed as `x` |
| JsText.NumberTextIsNumeric | backend/Server1.js:159-160 | `String(x)` of an integer passes `isNumeric` exactly when its magnitude is below 10^21 |
| JsText.Split | backend/Server1.js:70 | `split(' ')` yields at least one part, no part holds a space, and joining the parts with spaces gives the header back |
| JsText.SplitJoin | backend/Server1.js:70 | splitting undoes joining for parts without the separator |
| JsText.SecondWord | backend/Server1.js:70 | `split(' ')[1]` is defined exactly when the header holds a space, and the word it gives holds none |
| JsText.SecondWordOfPair | backend/Server1.js:70 | the token of `scheme + ' ' + token` is `token` |
| Users.FindByEmail | backend/Server1.js:95 | `findOne({ email })` finds nothing exactly when no user has the email; otherwise it finds a stored user with that email |
| Users.FindByGoogleId | backend/passport.js:14 | `findOne({ googleId })` finds nothing exactly when no user has that Google id; otherwise it finds a stored user with it |
| Users.FindById | backend/passport.js:39 | `findById` finds nothing exactly when no user has the id; otherwise it finds a stored user with it |
| Users.Register | backend/Server1.js:100-101 | saving a new user appends it with the given fields and an id no one had, and keeps ids unique |
| Users.FindOwnId | backend/passport.js:39 | with unique ids, looking up a stored user's id gives that user |
| Users.FindOwnEmail | backend/Server1.js:128 | with unique emails, looking up a stored user's email gives that user |
| Auth.TokenRequestFor | backend/Server1.js:79-81 | an access token carries only the user's id and lives one hour |
| Auth.CreateTokenForUser | backend/Server1.js:79-81 | the access token is what the signer gives for the payload `{ id }` alone with a 3600-second lifetime, so it depends on nothing but the user's id |
| Auth.BearerToken | backend/Server1.js:70 | a token is found exactly when the header holds a space |
| Auth.RequireAuth | backend/Server1.js:66-76 | an absent or empty header gives 401 "Unauthorized" and nothing else does; every other refusal is 403 "Forbidden"; an admitted request carries the payload the verifier found in the header's second word |
| Auth.BearerHeaderAdmits | backend/Server1.js:70-75 | a `scheme token` header admits exactly the verifier's payload for `token`, and gives 403 when the verifier refuses it |
| Auth.SchemeIgnored | backend/Server1.js:70 | two headers that differ only in the scheme word get the same answer |
| Auth.BareTokenForbidden | backend/Server1.js:70-72 | a header that is a bare token without a space is refused with 403 |
| Auth.IssuedTokenAdmitsUser | backend/Server1.js:79-81 | a token issued for a user, sent as `Bearer <token>` and accepted by the verifier, admits the request as that user's id |
| Metrics.NumericCheckOnValues | backend/Server1.js:159-160 | a numeric check fails on a missing field, and on a number it passes exactly when the number's magnitude is below 10^21 |
| Metrics.Validate | backend/Server1.js:162-165 | the error list is empty exactly when every check passes; it holds an entry for every failing check, each naming its field, value and message, and nothing else |
| Metrics.ValidateSingle | backend/Server1.js:162-165 | one check gives no error when it passes and exactly its own error otherwise |
| Metrics.ValidateAppend | backend/Server1.js:162-165 | the errors of a chain are the errors of its first part followed by those of the rest; with `ValidateSingle` this pins the list to one error per failing check, in declaration order, with no repeats |
| Metrics.Checks | backend/Server1.js:158-160 | each POST route checks exactly its own kind's fields (the SpO2 and weight chains at lines 210 and 241-242 likewise), and only `day` is checked as a string, every other field as numeric |
| Metrics.Stamp | backend/Server1.js:171 | a truthy timestamp is converted to a date; a missing or falsy one is replaced by the current time |
| Metrics.BuildRecord | backend/Server1.js:167-172 | a validated body becomes a reading of the route's kind with the body's values and the given timestamp |
| Listing.Insert | backend/Server1.js:192 | inserting into a timestamp-ordered list keeps it ordered and adds exactly that reading |
| Listing.SortByTime | backend/Server1.js:191-192 | `sort({ timestamp: 1 })` gives a permutation of the collection in ascending timestamp order |
| Listing.SortSortedIsIdentity | backend/Server1.js:192 | sorting a collection already in timestamp order changes nothing |
| Listing.Window | backend/Server1.js:193-194 | `.skip(k).limit(n)` gives the readings from position `k` on, at most `n` of them, and all of them when `n` is 0 |
| Listing.UnlimitedWindow | backend/Server1.js:193-194 | a limit of 0 gives every reading after the skipped ones |
| Listing.PagesTile | backend/Server1.js:185-194 | pages 1 to `p` of a positive size `l`, one after the other, are exactly the first `p * l` readings |
| Listing.HasMoreIffNextPageNonEmpty | backend/Server1.js:201 | for a positive limit, `hasMore` (`page * limit < total`) is true exactly when the next page is not empty |
| Listing.SecondPageOfTwentyFive | backend/Server1.js:185-201 | with 25 readings, page 2 of size 10 is the 11th to 20th reading and `hasMore` is true |
| Server.BroadcastAppend | backend/Server1.js:177 | emitting one more event adds its reading to what the listeners for its event name have received, and to no other kind |
| Metrics.EventNamesDistinct | backend/Server1.js:177 | the three kinds emit under three different event names |
| Server.EmptyWorldWf | backend/Server1.js:17-21 | the empty store satisfies the invariant |
| Server.InvalidGoogleToken | backend/Server1.js:110-113 | anything thrown in sign-up or login is answered with 400 and changes nothing |
| Server.SignUp | backend/Server1.js:84-114 | sign-up answers 201 or 400; a token the verifier refuses, a failed lookup and a failed save each answer 400 with the thrown message and change nothing; a known email is refused with the fixed message; 201 comes exactly when the ID token verifies, the lookup succeeds, the email is new and the save succeeds, and then one user with the token's email and name was appended, returned with a token for it; ids and emails stay unique |
| Server.LogIn | backend/Server1.js:117-145 | login answers 200 or 400; a token the verifier refuses, a failed lookup and a failed save each answer 400 with the thrown message and change nothing; a 200 needs a verified token and a working lookup; a known email logs in as the stored user and changes nothing; a new email with a verified token and a working store answers 200 after appending exactly one user with the token's email and name; at most one user is ever appended; 200 returns a stored user with the token's email and a token for it |
| Server.SaveFailure | backend/Server1.js:178-180 | a failed save answers 400 for blood pressure and 500 for SpO2 and weight |
| Server.Create | backend/Server1.js:158-181 | the gate answers before the validators' errors are looked at, with its own status and text; 201 exactly when admitted, valid and saved; a 201 returns the document built from the body's values with the given or current timestamp, appends it to its own collection only and emits exactly one event for it, under its kind's event name; any other answer changes nothing |
| Server.PageOf | backend/Server1.js:185 | the page read from the query is never 0 |
| Server.LimitOf | backend/Server1.js:186 | the page size read from the query is never 0 |
| Server.PageResponse | backend/Server1.js:196-202 | the 200 reply carries the total in body and header, the requested page number, `hasMore` iff `page * limit < total`, and the window of the time-ordered collection at `(page - 1) * limit` of `\|limit\|` readings |
| Server.ListBloodPressure | backend/Server1.js:184-206 | 200 exactly when admitted, the store answers and the skip is not negative; an admitted request whose read fails answers 500 with a text body; the reply holds the readings at `skip`, `skip + 1`, … of the time-ordered collection, at most `\|limit\|` of them, the total count in body and header, and `hasMore` iff `page * limit < total`; nothing changes |
| Server.ListAll | backend/Server1.js:230-237 | 200 exactly when admitted and the store answers; an admitted request whose read fails answers 500 with a JSON error; the reply is the whole collection in timestamp order; nothing changes |
| Server.Handle | backend/Server1.js:84-262 | every protected route answers the gate's refusal itself and changes nothing; only the sign-up and login routes change the users; only a 201 from a create route changes the readings or emits an event |
| Server.MissingHeaderUnauthorized | backend/Server1.js:66-68 | every protected route without an `Authorization` header answers 401 and changes nothing |
| Server.RefusedTokenForbidden | backend/Server1.js:70-72 | every protected route whose token the verifier refuses answers 403 and changes nothing |
| Server.UsersOnlyPreservesWf | backend/Server1.js:84-145 | a sign-up or login that keeps ids and emails unique and touches nothing but the users keeps the invariant |
| Server.AppendReadingPreservesWf | backend/Server1.js:174-177 | saving one reading under the next id of its own collection and emitting it once keeps the invariant |
| Server.CreatePreservesWf | backend/Server1.js:158-181 | every POST of a reading keeps the invariant |
| Server.HandlePreservesWf | backend/Server1.js:84-269 | every handler keeps ids and emails unique, keeps each collection to readings of its own kind, and keeps the readings broadcast under each kind equal to the readings saved, in save order |
| Server.SignUpTwiceRefused | backend/Server1.js:95-98 | signing up a second time with the same Google account is refused with 400 and changes nothing |
| Server.LogInTwiceSameUser | backend/Server1.js:128-132 | logging in a second time with the same Google account returns the same user and adds no one |
| Server.NegativeLimitHasMoreOnEmpty | backend/Server1.js:184-202 | with `?limit=-5` on an empty collection, the reply is 200 with no readings and `hasMore` true |
| Server.DefaultListingShowsAll | backend/Server1.js:184-202 | with no query, a collection of at most ten readings is listed whole, in timestamp order, with `hasMore` false |
| Server.CreateThenList | backend/Server1.js:158-206 | a blood-pressure reading saved without timestamp gets the current time and appears on page 1 of the default listing, which has no more pages while the collection is small |
| Passport.ConcatText | backend/passport.js:22 | a present name part is used as is; a missing one is written "undefined" |
| Passport.FullName | backend/passport.js:22 | with both parts present the full name is the given name, a space and the family name; a missing given name makes it start with "undefined ", a missing family name makes it end with " undefined" |
| Passport.NewUserFields | backend/passport.js:20-24 | the new user's fields exist exactly when the profile has a name and a non-empty email list, and are then the full name and the first email; otherwise the TypeError of the first missing part, name before email, is the result |
| Passport.VerifyCallback | backend/passport.js:11-30 | exactly one of error and user is reported; a failed lookup reports its error and saves nothing; a known Google id returns that user and saves nothing; otherwise a new user with the Google id, the profile's full name and its first email is appended; with a working store, an unknown Google id, a name and an email, exactly that one user is appended and returned; a profile without name or email, or a failed save, reports that error and saves nothing; ids and Google ids stay unique |
| Passport.RepeatedSignInSameUser | backend/passport.js:14-17 | a second sign-in with the same profile returns the first sign-in's user and saves nothing |
| Passport.StrategyCanDuplicateEmail | backend/passport.js:14-25 | a user without a Google id who signs in through the strategy with the same email gets a second record, and emails stop being unique |
| Passport.DeserializeUser | backend/passport.js:37-44 | an error is reported exactly when the lookup fails; a user found has the id asked for; an unknown id yields no user |
| Passport.SerializeRoundTrip | backend/passport.js:33-44 | with unique ids, deserialising a serialised stored user gives that user back |
| BPChart.Mount | src/components/WidgetsPage/Trackers/BPChart.jsx:19-21 | mounting fetches page 1 |
| BPChart.FetchPage | src/components/WidgetsPage/Trackers/BPChart.jsx:26 | a fetch is a GET with exactly the `page` and `limit` query parameters |
| BPChart.CeilDiv | src/components/WidgetsPage/Trackers/BPChart.jsx:57 | `Math.ceil(k / d)` is the least `c` with `c * d >= k` |
| BPChart.TotalPages | src/components/WidgetsPage/Trackers/BPChart.jsx:55-57 | the page count is NaN when the header is missing or not a number, and otherwise the least count of 10-reading pages that covers the total |
| BPChart.ChartOf | src/components/WidgetsPage/Trackers/BPChart.jsx:29-31 | the chart has one label and one systolic and diastolic point per row, in row order |
| BPChart.Step | src/components/WidgetsPage/Trackers/BPChart.jsx:23-101 | the page stays at least 1; it changes only by Next while below the page count or by Previous above page 1, by exactly one; an error is never cleared; every GET shows "Loading" and fetches the current page, except after a successful post, which fetches the page the post was submitted from; a POST comes only from Submit on a filled form and carries the typed fields and the page shown |
| BPChart.NonListReplyShowsError | src/components/WidgetsPage/Trackers/BPChart.jsx:23-63 | a reply whose body is not an array makes the chart show "Error fetching data" and stop loading, keeping its page and earlier chart |
| BPChart.NextIgnoredWithoutCount | src/components/WidgetsPage/Trackers/BPChart.jsx:91-95 | with a NaN page count, a click on Next changes nothing and fetches nothing |
| BPChart.NextStaysWithinTotal | src/components/WidgetsPage/Trackers/BPChart.jsx:91-95 | Next never moves past the page count |
| BPChart.SubmittedClearsForm | src/components/WidgetsPage/Trackers/BPChart.jsx:76-83 | a successful post clears the three fields, keeps the page shown and refetches the page it was submitted from |
| BPChart.SubmitPostsForm | src/components/WidgetsPage/Trackers/BPChart.jsx:67-77 | submitting a filled form posts the three typed fields; the `required` inputs (lines 166, 175, 184) stop a form with an empty field from being posted |
| BPChart.SubmitThenNextRefetchesSubmitPage | src/components/WidgetsPage/Trackers/BPChart.jsx:23-83 | after Submit and then Next, the post's success refetches the submit-time page while the next page is shown; when that refetch is answered last, the chart shows its rows under the newer page number |
| BPChart.ListReplyShowsRows | src/components/WidgetsPage/Trackers/BPChart.jsx:23-63 | an array reply charts its rows, sets the page count from the `x-total-count` header and stops loading, starting no request and keeping the page, the error and the form |
| BPChart.NextAfterReplyIffServerHasNextPage | src/components/WidgetsPage/Trackers/BPChart.jsx:55-57 | after an array reply carrying the backend's total, Next moves on from page `p` exactly when the backend's page `p + 1` is not empty |
| BPChart.SubmitFailedKeepsForm | src/components/WidgetsPage/Trackers/BPChart.jsx:85-88 | a failed post shows "Error submitting data" and keeps what was typed |
| BPChart.PageStaysPositive | src/components/WidgetsPage/Trackers/BPChart.jsx:91-101 | the page is at least 1 in every reachable state |
| BPChart.ErrorIsSticky | src/components/WidgetsPage/Trackers/BPChart.jsx:60-63 | once the `error` state is set, it stays set after any inputs; it is never cleared |
| BPChart.RequestedPageReachesServer | src/components/WidgetsPage/Trackers/BPChart.jsx:26 | the backend reads back the page the chart asked for, and page size 10 |
| BPChart.TotalPagesMatchServerPages | src/components/WidgetsPage/Trackers/BPChart.jsx:55-57 | with the backend's total-count header, page `p` is within the page count exactly when the backend's page `p` is not empty |
| BPChart.ChartRequestsUnauthorized | src/components/WidgetsPage/Trackers/BPChart.jsx:26 | the chart's GET has no `Authorization` header, so the backend answers 401 and changes nothing |
| MedInfo.FetchFor | src/components/WidgetsPage/MedInfoPage.jsx:24-30 | with an empty search term the page is fetched, otherwise the term is searched |
| MedInfo.Mount | src/components/WidgetsPage/MedInfoPage.jsx:24-30 | mounting fetches page 1 |
| MedInfo.AllVideos | src/components/WidgetsPage/MedInfoPage.jsx:63 | without a search term the six sample videos come first, followed by the fetched ones; with a term only the fetched ones are shown |
| MedInfo.NotFoundOnlyWhileSearching | src/components/WidgetsPage/MedInfoPage.jsx:135-148 | "Topic not found." only appears while a search term is entered and the list is empty |
| MedInfo.Step | src/components/WidgetsPage/MedInfoPage.jsx:24-92 | `hasMore` never turns back on; the page never goes down; a fetch starts exactly when the page or the search term changed, and it is the fetch for the new state; typing changes only the search term; a failed fetch changes nothing and fetches nothing |
| MedInfo.LoadMoreOnlyWhenShown | src/components/WidgetsPage/MedInfoPage.jsx:152 | "Load More" is rendered only while there is no search term and more pages may come, and a click moves the page exactly when it is rendered |
| MedInfo.LoadMoreNextPage | src/components/WidgetsPage/MedInfoPage.jsx:89-92 | Load More moves to exactly the next page and fetches it |
| MedInfo.PageReply | src/components/WidgetsPage/MedInfoPage.jsx:36-42 | an empty page ends paging and keeps the list; a non-empty page is appended after everything loaded |
| MedInfo.SearchReply | src/components/WidgetsPage/MedInfoPage.jsx:50-57 | a search reply replaces the list, and `noResults` is set exactly when it is empty |
| MedInfo.HasMoreNeverReturns | src/components/WidgetsPage/MedInfoPage.jsx:37-38 | once paging has ended it stays ended after any inputs |
| MedInfo.PageNeverDecreases | src/components/WidgetsPage/MedInfoPage.jsx:89-92 | the page never goes down after any inputs |
| MedInfo.SearchResultsStayAfterClearing | src/components/WidgetsPage/MedInfoPage.jsx:24-63 | after a search and then clearing the box, the list shows the samples, the old search results and the refetched page, in that order |

## Left out

- Logout (`backend/Server1.js:148-155`) is left out. It only calls
  passport's `req.logout`, which is session machinery outside this model.
- The error callbacks of `req.login` (the 500 answers in sign-up and
  login) are left out. `req.login` is passport session machinery, so the
  model always lets it succeed.
- Left out for the same reason:
  - express-session;
  - CORS;
  - body-parser;
  - the MongoDB connection;
  - `server.listen`;
  - the socket transport itself. Only the sequence of emitted events is
    modelled.
- express-validator's `check` also looks at cookies, headers, params and
  query. Only the body is modelled, because that is where these routes'
  fields come from.
- Request-body numbers are integers. JSON fractions, exponents, arrays and
  objects are not modelled. The same holds for the values and messages they
  would produce in `String(...)` and `isNumeric`.
- JsText.NumberText: integers are exact, so a magnitude of 10^21 or more
  keeps every digit in its mantissa. A double would round it to at most 17
  significant digits first. Only the exponent form matters to `isNumeric`.
- `parseInt` is exact. It does not model the rounding of digit runs longer
  than a double holds, or the hexadecimal `0x` prefix. The prefix matters
  only for the chart's radix-less call on a header the backend writes in
  decimal.
- Query parameters are single strings. The array that a repeated parameter
  produces is not modelled.
- `new Date(...)`, `Date.now()` and `toLocaleString()` are an oracle and
  an input. Timestamps are plain ordered integers, and chart labels are the
  timestamps themselves.
- The User, BloodPressure, SpO2 and Weight schemas are not part of this
  model. A schema-level refusal, such as a unique index or a cast error,
  shows up as a failed save, which the model covers.
- The store's order among readings with equal timestamps is not specified.
  The model keeps insertion order.
- `type="number"` and `type="datetime-local"` input checking is not
  modelled. The form only enforces that the three `required` fields are
  non-empty.
- The store refuses a negative `skip`, and the model answers that with 500.
  The message text `NegativeSkip` is the model's own.
- A negative `limit` is taken as its absolute value, as the store does.
- The drawer toggling, the outside-click listener and all styling in
  `MedInfoPage.jsx` are left out. They have no effect on the video list.
- Left out because they hold no logic beyond rendering:
  - `HeroSection.jsx`;
  - `Signin.jsx`;
  - `TrackersPage.jsx`;
  - `WidgetsPage.jsx`.
- A fetch reply is not tied to the request that caused it. A stale reply
  for an earlier page is applied like a fresh one, as both components do.
  Replies arrive in the order the input sequence gives them.
- BPChart.ErrorIsSticky: states only that some error stays set, not which
  text. Rendering is not modelled, so it does not state what the screen
  shows while loading. A later failure replaces "Error fetching data" with "Error
  submitting data", or the other way round.
- Passport.SerializeUser has no contract of its own. Its round trip is
  stated by `Passport.SerializeRoundTrip`.
- Server.HandlePreservesWf covers only the routes of `Server1.js`. The
  Google strategy can break email uniqueness, as
  `Passport.StrategyCanDuplicateEmail` shows, so it is outside that
  invariant.

=== FILE: auth.dfy ===
/** The bearer-token gate in front of every metric route, and the access
    token issued after sign-up or login. Signing and verification of JSON Web
    Tokens (RFC 7519) with the server's secret are oracles: `sign` turns a
    payload and a lifetime into a token, `verify` gives back the payload of a
    token that is correctly signed and not expired, and `None` otherwise. */
module Auth {
  import opened Wrappers
  import opened JsText
  import opened Users

  /** The claims an access token carries: only the user's id. */
  datatype TokenPayload = TokenPayload(id: UserId)

  /** What `jwt.sign` is asked to sign: the payload and `expiresIn`. */
  datatype SignRequest = SignRequest(payload: TokenPayload, expiresInSeconds: nat)

  type Signer = SignRequest -> string

  type Verifier = string -> Option<TokenPayload>

  /** `expiresIn: '1h'`. */
  const TokenLifetimeSeconds: nat := 3600

  /** `createTokenForUser`: a token for the payload `{ id: user.id }` with a
      one-hour lifetime. */
  function TokenRequestFor(u: User): (r: SignRequest)
    ensures r.payload.id == u.id && r.expiresInSeconds == 60 * 60
  {
    SignRequest(TokenPayload(u.id), TokenLifetimeSeconds)
  }

  /** The access token depends on the user's id alone and lives one hour. */
  function CreateTokenForUser(u: User, sign: Signer): (t: string)
    ensures t == sign(SignRequest(TokenPayload(u.id), 3600))
  {
    sign(TokenRequestFor(u))
  }

  /** What the gate does with a request: answer it itself, or pass it on to
      the route handler with the decoded payload as `req.user`. */
  datatype Gate = Rejected(status: int, text: string) | Admitted(user: TokenPayload)

  /** The token the gate hands to `jwt.verify`: the second space-separated
      word of the header. The first word is never looked at. */
  function BearerToken(header: string): (t: Option<string>)
    ensures t.Some? <==> ' ' in header
  {
    SecondWord(header)
  }

  /** `requireAuth`. A header that is absent or empty (falsy) is answered
      with 401. Otherwise a missing second word (`undefined`) or a token the
      verifier refuses is answered with 403, and a verified token admits the
      request carrying the token's payload. */
  function RequireAuth(header: Option<string>, verify: Verifier): (g: Gate)
    ensures g.Rejected? ==> (g.status, g.text) in {(401, "Unauthorized"), (403, "Forbidden")}
    ensures (g.Rejected? && g.status == 401) <==> (header.None? || header.value == "")
    ensures g.Admitted? ==> header.Some? && ' ' in header.value
    ensures g.Admitted? ==> verify(BearerToken(header.value).value) == Some(g.user)
  {
    if header.None? || header.value == "" then Rejected(401, "Unauthorized")
    else match BearerToken(header.value)
      case None => Rejected(403, "Forbidden")
      case Some(token) =>
        match verify(token)
        case None => Rejected(403, "Forbidden")
        case Some(payload) => Admitted(payload)
  }

  /** A header `scheme token` admits exactly the payload the verifier finds
      in `token`, whatever the scheme word says. */
  lemma BearerHeaderAdmits(scheme: string, token: string, verify: Verifier)
    requires ' ' !in scheme && ' ' !in token
    ensures verify(token).Some? ==> RequireAuth(Some(scheme + " " + token), verify) == Admitted(verify(token).value)
    ensures verify(token).None? ==> RequireAuth(Some(scheme + " " + token), verify) == Rejected(403, "Forbidden")
  {
    SecondWordOfPair(scheme, token);
  }

  /** The scheme word is never checked: two headers that differ only in it
      get the same answer. */
  lemma SchemeIgnored(scheme1: string, scheme2: string, token: string, verify: Verifier)
    requires ' ' !in scheme1 && ' ' !in scheme2 && ' ' !in token
    ensures RequireAuth(Some(scheme1 + " " + token), verify) == RequireAuth(Some(scheme2 + " " + token), verify)
  {
    BearerHeaderAdmits(scheme1, token, verify);
    BearerHeaderAdmits(scheme2, token, verify);
  }

  /** A bare token without a scheme word is refused with 403 even when it
      would verify, because the gate looks for a second word. */
  lemma BareTokenForbidden(token: string, verify: Verifier)
    requires token != "" && ' ' !in token
    ensures RequireAuth(Some(token), verify) == Rejected(403, "Forbidden")
  {
  }

  /** Round trip: a token issued for a user, presented as `Bearer <token>`
      while the verifier accepts it, admits the request as that user. */
  lemma IssuedTokenAdmitsUser(u: User, sign: Signer, verify: Verifier)
    requires ' ' !in CreateTokenForUser(u, sign)
    requires verify(CreateTokenForUser(u, sign)) == Some(TokenRequestFor(u).payload)
    ensures RequireAuth(Some("Bearer " + CreateTokenForUser(u, sign)), verify) == Admitted(TokenPayload(u.id))
  {
    var token := CreateTokenForUser(u, sign);
    assert "Bearer " + token == "Bearer" + " " + token;
    BearerHeaderAdmits("Bearer", token, verify);
  }
}

=== FILE: bp_chart.dfy ===
/** The blood-pressure chart component as a state machine. Its inputs are
    the user's clicks and edits and the replies to the HTTP requests it made;
    each step gives the new component state and the requests it starts.
    While the component shows "Loading" or an error it renders no buttons
    and no form, so clicks and edits cannot happen then and are ignored. */
module BPChart {
  import opened Wrappers
  import opened JsText
  import Metrics
  import Listing
  import Server
  import Storage

  /** The page size the chart always asks for. */
  const Limit := 10

  /** A number as JavaScript holds it after `parseInt` and `Math.ceil`. */
  datatype Num = Finite(n: int) | NaN

  /** One element of the reply body, as the chart reads it. */
  datatype Row = Row(systolic: Metrics.Value, diastolic: Metrics.Value, timestamp: Metrics.Time)

  /** The data handed to the line chart: one label and one point per row. */
  datatype Chart = Chart(labels: seq<Metrics.Time>, systolic: seq<Metrics.Value>, diastolic: seq<Metrics.Value>)

  datatype State = State(
    page: int,
    totalPages: Num,
    loading: bool,
    error: Option<string>,
    chart: Option<Chart>,
    systolic: string,
    diastolic: string,
    timestamp: string)

  /** The body of a reply: an array the chart can map over, or anything else
      (the backend's `{ data, currentPage, ... }` object is not an array). */
  datatype ReplyBody = Rows(rows: seq<Row>) | NotAList

  /** A resolved GET: its body and its `x-total-count` header. */
  datatype Reply = Reply(body: ReplyBody, totalCountHeader: Option<string>)

  /** The form's three fields, posted as typed. */
  datatype Entry = Entry(systolic: string, diastolic: string, timestamp: string)

  /** A request the component starts. Neither carries an `Authorization`
      header. A post remembers the page shown when it was submitted: the
      submit handler refetches that page once the post succeeds. */
  datatype Effect = Get(query: map<string, string>) | Post(entry: Entry, page: int)

  datatype Input =
    | Fetched(reply: Reply)
    | FetchFailed
    | Next
    | Previous
    | EditSystolic(text: string)
    | EditDiastolic(text: string)
    | EditTimestamp(text: string)
    | Submit
    | Submitted(page: int)
    | SubmitFailed

  const FetchError := "Error fetching data"
  const SubmitError := "Error submitting data"

  /** The state before the first render; mounting fetches page 1. */
  const Init := State(1, Finite(1), true, None, None, "", "", "")

  function Mount(): (effects: seq<Effect>)
    ensures effects == [FetchPage(Init.page)]
  {
    [FetchPage(1)]
  }

  /** `fetchData(page)`: GET `?page=<page>&limit=10`. */
  function FetchPage(page: int): (e: Effect)
    ensures e.Get? && e.query.Keys == {"page", "limit"}
  {
    Get(map["page" := IntToText(page), "limit" := IntToText(Limit)])
  }

  /** `Math.ceil(k / d)` for a positive divisor. */
  function CeilDiv(k: int, d: int): (c: int)
    requires 0 < d
    ensures k <= c * d < k + d
  {
    -((-k) / d)
  }

  /** `Math.ceil(parseInt(header) / limit)`. */
  function TotalPages(header: Option<string>): (t: Num)
    ensures header.Some? && ParseInt(header.value).Some?
            ==> t.Finite? && ParseInt(header.value).value <= t.n * Limit < ParseInt(header.value).value + Limit
    ensures (header.None? || ParseInt(header.value).None?) ==> t == NaN
  {
    if header.None? then NaN
    else match ParseInt(header.value)
      case None => NaN
      case Some(k) => Finite(CeilDiv(k, Limit))
  }

  function ChartOf(rows: seq<Row>): (c: Chart)
    ensures |c.labels| == |c.systolic| == |c.diastolic| == |rows|
    ensures forall i :: 0 <= i < |rows| ==>
              c.labels[i] == rows[i].timestamp && c.systolic[i] == rows[i].systolic && c.diastolic[i] == rows[i].diastolic
  {
    Chart(seq(|rows|, i requires 0 <= i < |rows| => rows[i].timestamp),
          seq(|rows|, i requires 0 <= i < |rows| => rows[i].systolic),
          seq(|rows|, i requires 0 <= i < |rows| => rows[i].diastolic))
  }

  /** The component renders its buttons and form only when it is neither
      loading nor showing an error. */
  predicate Interactive(s: State) {
    !s.loading && s.error.None?
  }

  /** The three inputs are `required`: the browser submits the form only
      when none of them is empty. */
  predicate FormFilled(s: State) {
    s.systolic != "" && s.diastolic != "" && s.timestamp != ""
  }

  /** `page < totalPages`, where any comparison with `NaN` is false. */
  predicate Below(page: int, total: Num) {
    total.Finite? && page < total.n
  }

  function Step(s: State, input: Input): (r: (State, seq<Effect>))
    ensures s.page >= 1 ==> r.0.page >= 1
    ensures r.0.page != s.page ==>
              || (input == Next && Below(s.page, s.totalPages) && r.0.page == s.page + 1)
              || (input == Previous && s.page > 1 && r.0.page == s.page - 1)
    ensures s.error.Some? ==> r.0.error.Some?
    ensures r.1 != [] && r.1[0].Get? ==>
              && r.0.loading
              && r.1 == [FetchPage(if input.Submitted? then input.page else r.0.page)]
    ensures r.1 != [] && r.1[0].Post? ==>
              && input == Submit && Interactive(s) && FormFilled(s) && r.0 == s
              && r.1 == [Post(Entry(s.systolic, s.diastolic, s.timestamp), s.page)]
  {
    match input
    case Fetched(reply) =>
      (match reply.body
       case Rows(rows) =>
         (s.(chart := Some(ChartOf(rows)), totalPages := TotalPages(reply.totalCountHeader), loading := false), [])
       case NotAList =>
         // `data.map` is not a function: the thrown TypeError is caught
         (s.(error := Some(FetchError), loading := false), []))
    case FetchFailed => (s.(error := Some(FetchError), loading := false), [])
    case Next =>
      if Interactive(s) && Below(s.page, s.totalPages) then
        var s' := s.(page := s.page + 1, loading := true);
        (s', [FetchPage(s'.page)])
      else (s, [])
    case Previous =>
      if Interactive(s) && s.page > 1 then
        var s' := s.(page := s.page - 1, loading := true);
        (s', [FetchPage(s'.page)])
      else (s, [])
    case EditSystolic(t) => if Interactive(s) then (s.(systolic := t), []) else (s, [])
    case EditDiastolic(t) => if Interactive(s) then (s.(diastolic := t), []) else (s, [])
    case EditTimestamp(t) => if Interactive(s) then (s.(timestamp := t), []) else (s, [])
    case Submit =>
      if Interactive(s) && FormFilled(s) then (s, [Post(Entry(s.systolic, s.diastolic, s.timestamp), s.page)])
      else (s, [])
    case Submitted(page) =>
      (s.(systolic := "", diastolic := "", timestamp := "", loading := true), [FetchPage(page)])
    case SubmitFailed => (s.(error := Some(SubmitError)), [])
  }

  /** A reply whose body is not an array (such as the backend's paginated
      object) makes `data.map` throw: the chart stops loading and shows
      "Error fetching data", keeping its page and any earlier chart. */
  lemma NonListReplyShowsError(s: State, header: Option<string>)
    ensures var s' := Step(s, Fetched(Reply(NotAList, header))).0;
            && s'.error == Some(FetchError) && !s'.loading
            && s'.page == s.page && s'.chart == s.chart
  {
  }

  /** With a NaN page count the Next button stays enabled (`page ===
      totalPages` is false), but a click does nothing, since `page < NaN`
      is false. */
  lemma NextIgnoredWithoutCount(s: State)
    requires s.totalPages == NaN
    ensures Step(s, Next) == (s, [])
  {
  }

  /** `handleNext` never takes the page past `totalPages`. */
  lemma NextStaysWithinTotal(s: State)
    ensures Step(s, Next).0.page == s.page || (s.totalPages.Finite? && Step(s, Next).0.page <= s.totalPages.n)
  {
  }

  /** A successful submit clears all three fields, keeps the page shown and
      refetches the page the post was submitted from. */
  lemma SubmittedClearsForm(s: State, page: int)
    ensures var (s', effects) := Step(s, Submitted(page));
            s'.systolic == "" && s'.diastolic == "" && s'.timestamp == ""
            && s'.page == s.page && effects == [FetchPage(page)]
  {
  }

  /** Submitting the filled form posts what was typed together with the page
      shown; an unfilled form posts nothing. */
  lemma SubmitPostsForm(s: State)
    requires Interactive(s)
    ensures FormFilled(s) ==> Step(s, Submit) == (s, [Post(Entry(s.systolic, s.diastolic, s.timestamp), s.page)])
    ensures !FormFilled(s) ==> Step(s, Submit) == (s, [])
  {
  }

  /** Moving to the next page while a post is in flight: once the post
      succeeds, the chart fetches the page it was submitted from, not the
      page now shown. When that refetch is answered after the next page's
      fetch, the chart shows the older page's rows under the newer page
      number. */
  lemma SubmitThenNextRefetchesSubmitPage(s: State, nextRows: seq<Row>, oldRows: seq<Row>,
                                          nextHeader: Option<string>, oldHeader: Option<string>)
    requires Interactive(s) && FormFilled(s) && Below(s.page, s.totalPages)
    ensures var (s1, e1) := Step(s, Submit);
            var (s2, e2) := Step(s1, Next);
            var (s3, e3) := Step(s2, Submitted(e1[0].page));
            var s4 := Step(s3, Fetched(Reply(Rows(nextRows), nextHeader))).0;
            var s5 := Step(s4, Fetched(Reply(Rows(oldRows), oldHeader))).0;
            && e1 == [Post(Entry(s.systolic, s.diastolic, s.timestamp), s.page)]
            && e2 == [FetchPage(s.page + 1)]
            && s3.page == s.page + 1
            && e3 == [FetchPage(s.page)]
            && s5.page == s.page + 1
            && s5.chart == Some(ChartOf(oldRows))
  {
    SubmitPostsForm(s);
    var s2 := Step(s, Next).0;
    assert s2 == s.(page := s.page + 1, loading := true);
    SubmittedClearsForm(s2, s.page);
    var s3 := Step(s2, Submitted(s.page)).0;
    ListReplyShowsRows(s3, nextRows, nextHeader);
    var s4 := Step(s3, Fetched(Reply(Rows(nextRows), nextHeader))).0;
    ListReplyShowsRows(s4, oldRows, oldHeader);
  }

  /** A failed submit shows the error and keeps what was typed. */
  lemma SubmitFailedKeepsForm(s: State)
    ensures var s' := Step(s, SubmitFailed).0;
            s'.error == Some(SubmitError)
            && s'.systolic == s.systolic && s'.diastolic == s.diastolic && s'.timestamp == s.timestamp
  {
  }

  function Run(s: State, inputs: seq<Input>): State
    decreases |inputs|
  {
    if |inputs| == 0 then s else Run(Step(s, inputs[0]).0, inputs[1..])
  }

  /** `page >= 1` holds in every state the component reaches. */
  lemma {:induction false} PageStaysPositive(s: State, inputs: seq<Input>)
    requires s.page >= 1
    ensures Run(s, inputs).page >= 1
    decreases |inputs|
  {
    if |inputs| > 0 {
      PageStaysPositive(Step(s, inputs[0]).0, inputs[1..]);
    }
  }

  /** The error state is never cleared: once `error` is set it stays set
      (a later failure may replace its text). A fetch in flight still
      renders "Loading data..." first; whenever it is not loading, the chart
      renders an error instead of its buttons. */
  lemma {:induction false} ErrorIsSticky(s: State, inputs: seq<Input>)
    requires s.error.Some?
    ensures Run(s, inputs).error.Some?
    decreases |inputs|
  {
    if |inputs| > 0 {
      ErrorIsSticky(Step(s, inputs[0]).0, inputs[1..]);
    }
  }

  /** The page the chart asks for is the page the backend reads from the
      query, and the page size it reads is 10. */
  lemma RequestedPageReachesServer(page: int, auth: Option<string>, body: Metrics.Body)
    requires page >= 1
    ensures var req := Server.Request(auth, body, FetchPage(page).query);
            Server.PageOf(req) == page && Server.LimitOf(req) == Limit
  {
    var req := Server.Request(auth, body, FetchPage(page).query);
    assert Server.Query(req, "page") == Some(IntToText(page));
    assert Server.Query(req, "limit") == Some(IntToText(Limit));
    ParseIntOrOfText(page, 1);
    ParseIntOrOfText(Limit, 10);
  }

  /** With the backend's `x-total-count` header, page `p` is within
      `totalPages` exactly when the backend's page `p` of size 10 is not
      empty. */
  lemma TotalPagesMatchServerPages(s: seq<Metrics.Reading>, p: int)
    requires p >= 1
    ensures var total := TotalPages(Some(IntToText(|s|)));
            total.Finite? && (p <= total.n <==> 0 < |Listing.Window(s, (p - 1) * Limit, Limit)|)
  {
    ParseIntOfText(|s|, "");
    assert IntToText(|s|) + "" == IntToText(|s|);
  }

  /** A reply whose body is an array replaces the chart with its rows, sets
      the page count from the `x-total-count` header and ends loading; it
      starts no request and leaves the page, the error and the form alone. */
  lemma ListReplyShowsRows(s: State, rows: seq<Row>, header: Option<string>)
    ensures var (s', effects) := Step(s, Fetched(Reply(Rows(rows), header)));
            && effects == []
            && s'.chart == Some(ChartOf(rows))
            && s'.totalPages == TotalPages(header)
            && !s'.loading
            && s'.page == s.page && s'.error == s.error
            && s'.systolic == s.systolic && s'.diastolic == s.diastolic && s'.timestamp == s.timestamp
  {
  }

  /** After a list reply that carries the backend's total for a collection,
      Next moves on from page `p` exactly when the backend's page `p + 1`
      of that collection is not empty. */
  lemma NextAfterReplyIffServerHasNextPage(s: State, rows: seq<Row>, c: seq<Metrics.Reading>)
    requires s.page >= 1 && s.error.None?
    ensures var s' := Step(s, Fetched(Reply(Rows(rows), Some(IntToText(|c|))))).0;
            Step(s', Next).0.page == s.page + 1 <==> 0 < |Listing.Window(c, s.page * Limit, Limit)|
  {
    var header := Some(IntToText(|c|));
    ListReplyShowsRows(s, rows, header);
    var s' := Step(s, Fetched(Reply(Rows(rows), header))).0;
    assert Interactive(s') && s'.page == s.page && s'.totalPages == TotalPages(header);
    TotalPagesMatchServerPages(c, s.page + 1);
    assert (s.page + 1 - 1) * Limit == s.page * Limit;
    assert Step(s', Next).0.page == s.page + 1 <==> Below(s.page, s'.totalPages);
  }

  /** The chart sends no `Authorization` header, so the backend answers each
      of its page requests with 401 and changes nothing. */
  lemma ChartRequestsUnauthorized(w: Server.World, page: int, env: Server.Env, db: Storage.Ops)
    ensures var req := Server.Request(None, map[], FetchPage(page).query);
            Server.ListBloodPressure(w, req, env, db) == Server.Outcome(Server.Response(401, None, Server.Text("Unauthorized")), w)
  {
  }
}

=== FILE: js_text.dfy ===
/** The JavaScript string and number conversions the request handling relies
    on: the decimal rendering of an integer (`String(n)`, template literals),
    `parseInt(s, 10)`, `String.prototype.split` on a one-character separator,
    and the `isNumeric` test the request validators apply. */
module JsText {
  import opened Wrappers

  predicate IsDigit(c: char) {
    '0' <= c <= '9'
  }

  predicate AllDigits(s: string) {
    forall i :: 0 <= i < |s| ==> IsDigit(s[i])
  }

  function DigitValue(c: char): (d: nat)
    requires IsDigit(c)
    ensures d < 10
  {
    (c as int) - ('0' as int)
  }

  function DigitChar(d: nat): (c: char)
    requires d < 10
    ensures IsDigit(c) && DigitValue(c) == d
  {
    (('0' as int) + d) as char
  }

  /** The value of a string of decimal digits, most significant first. */
  function DigitsValue(s: string): nat
    requires AllDigits(s)
  {
    if |s| == 0 then 0 else DigitsValue(s[..|s| - 1]) * 10 + DigitValue(s[|s| - 1])
  }

  /** `String(n)` for a non-negative integer: its digits without leading zeros. */
  function NatToText(n: nat): (s: string)
    ensures 0 < |s| && AllDigits(s)
    ensures 1 < |s| ==> s[0] != '0'
  {
    if n < 10 then [DigitChar(n)] else NatToText(n / 10) + [DigitChar(n % 10)]
  }

  /** `String(n)` for any integer. */
  function IntToText(n: int): (s: string)
    ensures 0 < |s|
    ensures n < 0 <==> s[0] == '-'
  {
    if n < 0 then "-" + NatToText(-n) else NatToText(n)
  }

  lemma {:induction false} NatToTextValue(n: nat)
    ensures DigitsValue(NatToText(n)) == n
  {
    if n >= 10 {
      var s := NatToText(n);
      assert s[..|s| - 1] == NatToText(n / 10);
      NatToTextValue(n / 10);
    }
  }

  /** The characters ECMAScript's `parseInt` skips before the number:
      WhiteSpace and LineTerminator. */
  predicate IsSpace(c: char) {
    var k := c as int;
    k == 0x09 || k == 0x0A || k == 0x0B || k == 0x0C || k == 0x0D || k == 0x20
    || k == 0xA0 || k == 0x1680 || (0x2000 <= k <= 0x200A) || k == 0x2028
    || k == 0x2029 || k == 0x202F || k == 0x205F || k == 0x3000 || k == 0xFEFF
  }

  function TrimStart(s: string): (t: string)
    ensures |t| <= |s| && t == s[|s| - |t|..]
    ensures 0 < |t| ==> !IsSpace(t[0])
    ensures forall i :: 0 <= i < |s| - |t| ==> IsSpace(s[i])
  {
    if 0 < |s| && IsSpace(s[0]) then
      var t := TrimStart(s[1..]);
      assert forall i :: 0 < i < |s| - |t| ==> s[i] == s[1..][i - 1];
      t
    else s
  }

  /** The longest prefix of `s` made of decimal digits. */
  function DigitPrefix(s: string): (p: string)
    ensures AllDigits(p) && |p| <= |s| && p == s[..|p|]
    ensures |p| < |s| ==> !IsDigit(s[|p|])
  {
    if 0 < |s| && IsDigit(s[0]) then [s[0]] + DigitPrefix(s[1..]) else []
  }

  /** `parseInt(s, 10)`: leading white space is skipped, one sign is read,
      then the longest run of digits; `None` stands for `NaN`, the result
      when there is no digit. Doubles' rounding of very long digit runs is
      not modelled. */
  function ParseInt(s: string): (r: Option<int>)
    ensures r.None? <==> DigitPrefix(Unsigned(TrimStart(s))) == []
  {
    var t := TrimStart(s);
    var digits := DigitPrefix(Unsigned(t));
    var magnitude: int := if |digits| == 0 then 0 else DigitsValue(digits);
    if |digits| == 0 then None
    else if 0 < |t| && t[0] == '-' then Some(-magnitude)
    else Some(magnitude)
  }

  function Unsigned(t: string): (u: string)
    ensures |u| <= |t|
  {
    if 0 < |t| && (t[0] == '-' || t[0] == '+') then t[1..] else t
  }

  /** `parseInt(v, 10) || fallback`: a missing value, `NaN` and zero all
      yield the fallback; so does `-0`, which is `0` here. */
  function ParseIntOr(v: Option<string>, fallback: int): (r: int)
    ensures fallback != 0 ==> r != 0
    ensures v.Some? && ParseInt(v.value).Some? && ParseInt(v.value).value != 0 ==> r == ParseInt(v.value).value
    ensures (v.None? || ParseInt(v.value).None? || ParseInt(v.value) == Some(0)) ==> r == fallback
  {
    if v.None? then fallback
    else match ParseInt(v.value)
      case None => fallback
      case Some(n) => if n == 0 then fallback else n
  }

  lemma {:induction false} DigitPrefixOfDigits(a: string, rest: string)
    requires AllDigits(a)
    requires |rest| == 0 || !IsDigit(rest[0])
    ensures DigitPrefix(a + rest) == a
  {
    if |a| > 0 {
      assert (a + rest)[1..] == a[1..] + rest;
      DigitPrefixOfDigits(a[1..], rest);
      assert a == [a[0]] + a[1..];
    } else {
      assert a + rest == rest;
    }
  }

  /** Neither a digit nor a minus sign is white space. */
  lemma SignOrDigitIsNotSpace(c: char)
    requires IsDigit(c) || c == '-'
    ensures !IsSpace(c)
  {
  }

  lemma TrimStartKeeps(s: string)
    requires 0 < |s| && !IsSpace(s[0])
    ensures TrimStart(s) == s
  {
  }

  /** The rendering of an integer starts with no white space, and after its
      optional sign come the digits of its magnitude. */
  lemma SignOfText(n: int, rest: string)
    ensures TrimStart(IntToText(n) + rest) == IntToText(n) + rest
    ensures Unsigned(IntToText(n) + rest) == NatToText(if n < 0 then -n else n) + rest
  {
    var digits := NatToText(if n < 0 then -n else n);
    var s := IntToText(n) + rest;
    assert IsDigit(digits[0]);
    if n < 0 {
      assert s == "-" + (digits + rest);
      SignOrDigitIsNotSpace(s[0]);
    } else {
      assert s == digits + rest;
      assert s[0] == digits[0];
      SignOrDigitIsNotSpace(s[0]);
    }
    TrimStartKeeps(s);
  }

  /** `parseInt` reads back what `String` wrote, also when other characters
      follow the number (`parseInt("12&limit=10") == 12`). */
  lemma ParseIntOfText(n: int, rest: string)
    requires |rest| == 0 || (!IsDigit(rest[0]))
    ensures ParseInt(IntToText(n) + rest) == Some(n)
  {
    var m: nat := if n < 0 then -n else n;
    SignOfText(n, rest);
    DigitPrefixOfDigits(NatToText(m), rest);
    NatToTextValue(m);
  }

  /** `parseInt(String(n), 10) || d` is `n` for every non-zero `n`. */
  lemma ParseIntOrOfText(n: int, fallback: int)
    requires n != 0
    ensures ParseIntOr(Some(IntToText(n)), fallback) == n
  {
    ParseIntOfText(n, "");
    assert IntToText(n) + "" == IntToText(n);
  }

  /** The test `validator.isNumeric` makes with its default options: an
      optional sign, then digits with at most one decimal point, ending in a
      digit (`^[+-]?([0-9]*[.])?[0-9]+$`). */
  predicate IsNumericText(s: string) {
    var t := Unsigned(s);
    && 0 < |t|
    && IsDigit(t[|t| - 1])
    && (forall i :: 0 <= i < |t| ==> IsDigit(t[i]) || t[i] == '.')
    && (forall i, j :: 0 <= i < j < |t| && t[i] == '.' ==> t[j] != '.')
  }

  /** Every integer written out in decimal digits passes the numeric check. */
  lemma IntTextIsNumeric(n: int)
    ensures IsNumericText(IntToText(n))
  {
    if n < 0 {
      assert Unsigned(IntToText(n)) == NatToText(-n);
    }
  }

  /** The magnitude, 10^21, from which `String(x)` writes an integral
      number in exponent notation. */
  const ExponentFrom: int := 1_000_000_000_000_000_000_000

  /** `s` without its trailing zeros. */
  function DropTrailingZeros(s: string): (t: string)
    ensures |t| <= |s| && t == s[..|t|]
    ensures 0 < |t| ==> t[|t| - 1] != '0'
    ensures forall i :: |t| <= i < |s| ==> s[i] == '0'
    decreases |s|
  {
    if 0 < |s| && s[|s| - 1] == '0' then
      var t := DropTrailingZeros(s[..|s| - 1]);
      assert s[..|s| - 1][..|t|] == s[..|t|];
      t
    else s
  }

  /** `String(x)` for a JSON number `x` holding the integer `n`: its decimal
      digits below 10^21 in magnitude; from there on the first digit, the
      remaining significant digits after a point, and `e+` with the
      exponent. */
  function NumberText(n: int): (s: string)
    ensures -ExponentFrom < n < ExponentFrom ==> s == IntToText(n)
    ensures (n <= -ExponentFrom || ExponentFrom <= n) ==> 'e' in s && (n < 0 <==> s[0] == '-')
  {
    if -ExponentFrom < n < ExponentFrom then IntToText(n)
    else
      var digits := NatToText(if n < 0 then -n else n);
      var fraction := DropTrailingZeros(digits[1..]);
      var mantissa := digits[..1] + (if fraction == "" then "" else "." + fraction);
      var s := (if n < 0 then "-" else "") + mantissa + "e+" + NatToText(|digits| - 1);
      assert s[|s| - |NatToText(|digits| - 1)| - 2] == 'e';
      s
  }

  /** A letter `e` survives dropping the sign. */
  lemma ExponentMarkKept(s: string)
    requires 'e' in s
    ensures 'e' in Unsigned(s)
  {
    var i :| 0 <= i < |s| && s[i] == 'e';
    if 0 < |s| && (s[0] == '-' || s[0] == '+') {
      assert Unsigned(s)[i - 1] == 'e';
    }
  }

  /** A JSON integer passes the numeric check exactly when it is below
      10^21 in magnitude: from there on its text has an exponent. */
  lemma NumberTextIsNumeric(n: int)
    ensures IsNumericText(NumberText(n)) <==> -ExponentFrom < n < ExponentFrom
  {
    if -ExponentFrom < n < ExponentFrom {
      IntTextIsNumeric(n);
    } else {
      var t := Unsigned(NumberText(n));
      ExponentMarkKept(NumberText(n));
      var i :| 0 <= i < |t| && t[i] == 'e';
      assert !(IsDigit(t[i]) || t[i] == '.');
    }
  }

  /** Glue a non-empty list of parts back together with `sep` in between. */
  function Join(parts: seq<string>, sep: char): string
    requires 0 < |parts|
  {
    if |parts| == 1 then parts[0] else parts[0] + [sep] + Join(parts[1..], sep)
  }

  /** `s.split(sep)` for a one-character separator: the maximal pieces of
      `s` between separators, empty pieces included. */
  function Split(s: string, sep: char): (parts: seq<string>)
    ensures 0 < |parts|
    ensures forall i :: 0 <= i < |parts| ==> sep !in parts[i]
    ensures Join(parts, sep) == s
  {
    if |s| == 0 then [""]
    else
      var rest := Split(s[1..], sep);
      if s[0] == sep then
        assert [sep] + s[1..] == s;
        [""] + rest
      else
        var first := [s[0]] + rest[0];
        assert sep !in first;
        assert s == [s[0]] + s[1..];
        assert |rest| > 1 ==> Join(rest, sep) == rest[0] + [sep] + Join(rest[1..], sep);
        assert ([first] + rest[1..])[1..] == rest[1..];
        [first] + rest[1..]
  }

  lemma {:induction false} SplitWord(a: string, sep: char)
    requires sep !in a
    ensures Split(a, sep) == [a]
  {
    if |a| > 0 {
      SplitWord(a[1..], sep);
      assert a == [a[0]] + a[1..];
    }
  }

  lemma {:induction false} SplitAfterWord(a: string, sep: char, rest: string)
    requires sep !in a
    ensures Split(a + [sep] + rest, sep) == [a] + Split(rest, sep)
  {
    var s := a + [sep] + rest;
    if |a| == 0 {
      assert s[1..] == rest;
    } else {
      assert s[1..] == a[1..] + [sep] + rest;
      SplitAfterWord(a[1..], sep, rest);
      assert a == [a[0]] + a[1..];
    }
  }

  /** Splitting undoes joining, as long as no part holds the separator. */
  lemma {:induction false} SplitJoin(parts: seq<string>, sep: char)
    requires 0 < |parts|
    requires forall i :: 0 <= i < |parts| ==> sep !in parts[i]
    ensures Split(Join(parts, sep), sep) == parts
  {
    if |parts| == 1 {
      SplitWord(parts[0], sep);
    } else {
      SplitJoin(parts[1..], sep);
      SplitAfterWord(parts[0], sep, Join(parts[1..], sep));
      assert parts == [parts[0]] + parts[1..];
    }
  }

  /** The second space-separated word, `header.split(' ')[1]`; `None` is
      JavaScript's `undefined` when there is no space at all. */
  function SecondWord(s: string): (w: Option<string>)
    ensures w.Some? <==> ' ' in s
    ensures w.Some? ==> ' ' !in w.value
  {
    var parts := Split(s, ' ');
    if |parts| >= 2 then Some(parts[1])
    else
      assert s == parts[0];
      None
  }

  /** The second word of `first + " " + second` is `second` when neither
      holds a space. */
  lemma SecondWordOfPair(first: string, second: string)
    requires ' ' !in first && ' ' !in second
    ensures SecondWord(first + " " + second) == Some(second)
  {
    SplitJoin([first, second], ' ');
    assert Join([first, second], ' ') == first + " " + second;
  }
}

=== FILE: listing.dfy ===
/** Reading a metric collection back: `find().sort({ timestamp: 1 })`
    orders it by ascending timestamp, and `.skip(k).limit(n)` cuts one page
    out of that order. The store does not promise an order among readings
    with equal timestamps; the model keeps their insertion order. */
module Listing {
  import opened Metrics

  predicate SortedByTime(s: seq<Reading>) {
    forall i, j :: 0 <= i < j < |s| ==> s[i].timestamp <= s[j].timestamp
  }

  /** Putting a reading no later than every other in front keeps the order. */
  lemma ConsSorted(x: Reading, s: seq<Reading>)
    requires SortedByTime(s)
    requires forall k :: 0 <= k < |s| ==> x.timestamp <= s[k].timestamp
    ensures SortedByTime([x] + s)
  {
    var t := [x] + s;
    forall i, j | 0 <= i < j < |t|
      ensures t[i].timestamp <= t[j].timestamp
    {
      if i > 0 {
        assert t[i] == s[i - 1] && t[j] == s[j - 1];
      } else {
        assert t[j] == s[j - 1];
      }
    }
  }

  /** A lower bound on the timestamps of `r` and of `s` is one on every
      reading drawn from them. */
  lemma LowerBoundKept(x: Reading, r: Reading, s: seq<Reading>, t: seq<Reading>)
    requires x.timestamp <= r.timestamp
    requires forall k :: 0 <= k < |s| ==> x.timestamp <= s[k].timestamp
    requires forall k :: 0 <= k < |t| ==> t[k] == r || t[k] in s
    ensures forall k :: 0 <= k < |t| ==> x.timestamp <= t[k].timestamp
  {
  }

  function Insert(r: Reading, s: seq<Reading>): (t: seq<Reading>)
    requires SortedByTime(s)
    ensures SortedByTime(t)
    ensures |t| == |s| + 1
    ensures forall k :: 0 <= k < |t| ==> t[k] == r || t[k] in s
    ensures multiset(t) == multiset(s) + multiset{r}
  {
    if |s| == 0 then [r]
    else if r.timestamp <= s[0].timestamp then
      ConsSorted(r, s);
      [r] + s
    else
      SortedTail(s);
      var rest := Insert(r, s[1..]);
      HeadThenInserted(r, s, rest);
      [s[0]] + rest
  }

  /** The first reading of `s`, when it is earlier than `r`, followed by
      the rest of `s` with `r` inserted, is `s` with `r` inserted. */
  lemma HeadThenInserted(r: Reading, s: seq<Reading>, rest: seq<Reading>)
    requires SortedByTime(s) && 0 < |s| && s[0].timestamp <= r.timestamp
    requires SortedByTime(rest)
    requires forall k :: 0 <= k < |rest| ==> rest[k] == r || rest[k] in s[1..]
    requires multiset(rest) == multiset(s[1..]) + multiset{r}
    ensures SortedByTime([s[0]] + rest)
    ensures forall k :: 0 <= k < |rest| + 1 ==> ([s[0]] + rest)[k] == r || ([s[0]] + rest)[k] in s
    ensures multiset([s[0]] + rest) == multiset(s) + multiset{r}
  {
    var tail := s[1..];
    assert forall k :: 0 <= k < |tail| ==> s[0].timestamp <= tail[k].timestamp by {
      forall k | 0 <= k < |tail|
        ensures s[0].timestamp <= tail[k].timestamp
      {
        assert tail[k] == s[k + 1];
      }
    }
    LowerBoundKept(s[0], r, tail, rest);
    ConsSorted(s[0], rest);
    assert s == [s[0]] + tail;
  }

  /** `sort({ timestamp: 1 })`: the same readings, in ascending timestamp order. */
  function SortByTime(s: seq<Reading>): (t: seq<Reading>)
    ensures SortedByTime(t)
    ensures |t| == |s|
    ensures multiset(t) == multiset(s)
  {
    if |s| == 0 then []
    else
      assert s == [s[0]] + s[1..];
      Insert(s[0], SortByTime(s[1..]))
  }

  lemma SortedTail(s: seq<Reading>)
    requires SortedByTime(s) && 0 < |s|
    ensures SortedByTime(s[1..])
  {
    var t := s[1..];
    forall i, j | 0 <= i < j < |t|
      ensures t[i].timestamp <= t[j].timestamp
    {
      assert t[i] == s[i + 1] && t[j] == s[j + 1];
    }
  }

  /** A reading no later than the first of a sorted list goes in front. */
  lemma InsertSmallest(r: Reading, t: seq<Reading>)
    requires SortedByTime(t)
    requires 0 < |t| ==> r.timestamp <= t[0].timestamp
    ensures Insert(r, t) == [r] + t
  {
  }

  /** Sorting a collection that is already in timestamp order changes nothing. */
  lemma {:induction false} SortSortedIsIdentity(s: seq<Reading>)
    requires SortedByTime(s)
    ensures SortByTime(s) == s
  {
    if |s| > 0 {
      var t := s[1..];
      SortedTail(s);
      SortSortedIsIdentity(t);
      assert 0 < |t| ==> s[0].timestamp <= t[0].timestamp by {
        if 0 < |t| {
          assert t[0] == s[1];
        }
      }
      InsertSmallest(s[0], t);
      assert s == [s[0]] + t;
    }
  }

  function Min(a: int, b: int): int {
    if a <= b then a else b
  }

  /** How many of `available` readings a limit of `count` lets through: a
      limit of 0 sets no limit. */
  function Taken(count: nat, available: nat): nat {
    if count == 0 then available else Min(count, available)
  }

  /** `w` is the run of `s` that starts at position `skip` and holds
      `count` readings, or fewer when `s` ends first; with `count == 0` it
      runs to the end of `s`. */
  predicate IsWindow(w: seq<Reading>, s: seq<Reading>, skip: int, count: nat) {
    && 0 <= skip
    && |w| == Taken(count, |s| - Min(skip, |s|))
    && forall i :: 0 <= i < |w| ==> skip + i < |s| && w[i] == s[skip + i]
  }

  /** `.skip(skip).limit(count)` on an ordered sequence; the store reads a
      limit of 0 as no limit. */
  function Window(s: seq<Reading>, skip: nat, count: nat): (w: seq<Reading>)
    ensures IsWindow(w, s, skip, count)
  {
    var lo := Min(skip, |s|);
    var hi := if count == 0 then |s| else Min(lo + count, |s|);
    s[lo..hi]
  }

  /** A limit of 0 gives everything after the skipped readings. */
  lemma UnlimitedWindow(s: seq<Reading>, skip: nat)
    ensures Window(s, skip, 0) == s[Min(skip, |s|)..]
  {
  }

  /** The first `pages` pages of size `limit`, one after the other. */
  function Pages(s: seq<Reading>, limit: nat, pages: nat): seq<Reading> {
    if pages == 0 then [] else Pages(s, limit, pages - 1) + Window(s, (pages - 1) * limit, limit)
  }

  /** Paging through a collection visits each reading once and in order:
      the first `pages` pages together are exactly its first
      `pages * limit` readings. The handler's page size is never 0. */
  lemma {:induction false} PagesTile(s: seq<Reading>, limit: nat, pages: nat)
    requires 0 < limit
    ensures Pages(s, limit, pages) == s[..Min(pages * limit, |s|)]
  {
    if pages > 0 {
      var start := (pages - 1) * limit;
      PagesTile(s, limit, pages - 1);
      NextPageStart(pages, limit);
      PrefixThenWindow(s, start, limit);
    }
  }

  lemma NextPageStart(pages: nat, limit: nat)
    requires 0 < pages
    ensures pages * limit == (pages - 1) * limit + limit
  {
  }

  /** The readings before position `start`, followed by the window at
      `start`, are the readings before `start + count`. */
  lemma PrefixThenWindow(s: seq<Reading>, start: nat, count: nat)
    requires 0 < count
    ensures s[..Min(start, |s|)] + Window(s, start, count) == s[..Min(start + count, |s|)]
  {
    var lo := Min(start, |s|);
    var hi := Min(start + count, |s|);
    assert Window(s, start, count) == s[lo..hi];
    assert s[..lo] + s[lo..hi] == s[..hi];
  }

  /** For a positive page size, the `hasMore` test `page * limit < total`
      holds exactly when the next page is not empty. */
  lemma HasMoreIffNextPageNonEmpty(s: seq<Reading>, page: nat, limit: nat)
    requires 1 <= limit
    ensures page * limit < |s| <==> 0 < |Window(s, page * limit, limit)|
  {
  }

  /** With 25 readings, page 2 of size 10 holds the 11th to 20th readings. */
  lemma SecondPageOfTwentyFive(s: seq<Reading>)
    requires |s| == 25
    ensures Window(s, (2 - 1) * 10, 10) == s[10..20]
    ensures 2 * 10 < |s|
  {
  }
}

=== FILE: med_info.dfy ===
/** The medical-information video page as a state machine. Its inputs are
    edits of the search box, clicks on "Load More", and the replies to the
    fetches it starts; each step gives the new state and the fetches the
    effect on `[page, searchTerm]` starts. A failed fetch is only logged. */
module MedInfo {

  datatype Video = Video(src: string, thumbnail: string, description: string)

  /** The six fallback videos shown ahead of the fetched ones while no search
      term is entered. */
  const SampleVideos: seq<Video> := [
    Video("https://www.youtube.com/watch?v=aY-XAXa_az8", "https://img.youtube.com/vi/aY-XAXa_az8/hqdefault.jpg",
          "Postpartum HyperTension"),
    Video("https://www.youtube.com/watch?v=BNANySYpfIg", "https://img.youtube.com/vi/BNANySYpfIg/hqdefault.jpg",
          "Postpartum HyperTension | UPMC Podcast"),
    Video("https://www.youtube.com/watch?v=3wXjoQbus2U", "https://img.youtube.com/vi/3wXjoQbus2U/hqdefault.jpg",
          "Causes of postpartum hypertension"),
    Video("https://www.youtube.com/watch?v=94YnsT9g19c", "https://img.youtube.com/vi/94YnsT9g19c/hqdefault.jpg",
          "Causes of blood pressure changes post delivery"),
    Video("https://www.youtube.com/watch?v=AXLEmib2ZrY", "https://img.youtube.com/vi/AXLEmib2ZrY/hqdefault.jpg",
          "Will Blood Pressure return to normal after delivery?"),
    Video("https://www.youtube.com/watch?v=wa3P552cQs8", "https://img.youtube.com/vi/wa3P552cQs8/hqdefault.jpg",
          "Postpartum Preeclampsia")
  ]

  datatype State = State(searchTerm: string, videos: seq<Video>, page: int, hasMore: bool, noResults: bool)

  /** `fetchVideos(page)` or `fetchSearchedVideos(searchTerm)`. */
  datatype Effect = FetchPage(page: int) | FetchSearch(term: string)

  datatype Input =
    | Typed(term: string)
    | LoadMore
    | PageArrived(data: seq<Video>)
    | SearchArrived(data: seq<Video>)
    | FetchFailed

  const Init := State("", [], 1, true, false)

  /** The fetch the effect starts: by page while the search term is empty
      (falsy), by search term otherwise. */
  function FetchFor(s: State): (e: Effect)
    ensures e.FetchPage? <==> s.searchTerm == ""
    ensures e.FetchPage? ==> e.page == s.page
    ensures e.FetchSearch? ==> e.term == s.searchTerm
  {
    if s.searchTerm == "" then FetchPage(s.page) else FetchSearch(s.searchTerm)
  }

  /** Mounting runs the effect once, for page 1. */
  function Mount(): (effects: seq<Effect>)
    ensures effects == [FetchPage(1)]
  {
    [FetchFor(Init)]
  }

  /** `allVideos`: the list the grid shows. */
  function AllVideos(s: State): (all: seq<Video>)
    ensures s.searchTerm == "" ==> all == SampleVideos + s.videos && |all| >= 6
    ensures s.searchTerm != "" ==> all == s.videos
  {
    if s.searchTerm != "" then s.videos else SampleVideos + s.videos
  }

  /** The "Load More" button is rendered. */
  predicate ShowLoadMore(s: State) {
    s.hasMore && s.searchTerm == ""
  }

  /** "Topic not found." is rendered. */
  predicate ShowNotFound(s: State) {
    |AllVideos(s)| == 0 && s.noResults
  }

  /** "Topic not found." can only appear while a search term is entered. */
  lemma NotFoundOnlyWhileSearching(s: State)
    requires ShowNotFound(s)
    ensures s.searchTerm != "" && s.videos == []
  {
  }

  /** A click on "Load More" can only happen while the button is rendered;
      one that cannot happen is ignored. */
  function Step(s: State, input: Input): (r: (State, seq<Effect>))
    ensures r.0.hasMore ==> s.hasMore
    ensures r.0.page >= s.page
    ensures r.1 == (if r.0.page != s.page || r.0.searchTerm != s.searchTerm then [FetchFor(r.0)] else [])
    ensures input.Typed? ==> r.0 == s.(searchTerm := input.term)
    ensures input.FetchFailed? ==> r == (s, [])
  {
    match input
    case Typed(term) =>
      var s' := s.(searchTerm := term);
      (s', if term != s.searchTerm then [FetchFor(s')] else [])
    case LoadMore =>
      if ShowLoadMore(s) then
        var s' := s.(page := s.page + 1);
        (s', [FetchFor(s')])
      else (s, [])
    case PageArrived(data) =>
      if |data| == 0 then (s.(hasMore := false), [])
      else (s.(videos := s.videos + data), [])
    case SearchArrived(data) =>
      if |data| == 0 then (s.(noResults := true, videos := []), [])
      else (s.(noResults := false, videos := data), [])
    case FetchFailed => (s, [])
  }

  /** A click on "Load More" moves the page exactly when the button is
      rendered, which is only while browsing (no search term) with more
      pages possible; otherwise nothing happens. */
  lemma LoadMoreOnlyWhenShown(s: State)
    ensures Step(s, LoadMore).0.page != s.page <==> ShowLoadMore(s)
    ensures ShowLoadMore(s) ==> s.searchTerm == "" && s.hasMore
    ensures !ShowLoadMore(s) ==> Step(s, LoadMore) == (s, [])
  {
  }

  /** `loadMoreVideos` moves to exactly the next page and fetches it. */
  lemma LoadMoreNextPage(s: State)
    requires ShowLoadMore(s)
    ensures Step(s, LoadMore) == (s.(page := s.page + 1), [FetchPage(s.page + 1)])
  {
  }

  /** A page reply: an empty one ends paging and keeps the list; a non-empty
      one is appended after everything already loaded. */
  lemma PageReply(s: State, data: seq<Video>)
    ensures var s' := Step(s, PageArrived(data)).0;
            && (|data| == 0 ==> !s'.hasMore && s'.videos == s.videos)
            && (|data| > 0 ==> s'.hasMore == s.hasMore && s'.videos[..|s.videos|] == s.videos
                                && s'.videos[|s.videos|..] == data)
  {
  }

  /** A search reply replaces the list: an empty one empties it and sets
      `noResults`, a non-empty one becomes the list and clears `noResults`. */
  lemma SearchReply(s: State, data: seq<Video>)
    ensures var s' := Step(s, SearchArrived(data)).0;
            && s'.videos == data
            && s'.noResults == (|data| == 0)
            && s'.hasMore == s.hasMore
  {
  }

  function Run(s: State, inputs: seq<Input>): State
    decreases |inputs|
  {
    if |inputs| == 0 then s else Run(Step(s, inputs[0]).0, inputs[1..])
  }

  /** `hasMore` only ever goes from true to false: once false, it stays false. */
  lemma {:induction false} HasMoreNeverReturns(s: State, inputs: seq<Input>)
    requires !s.hasMore
    ensures !Run(s, inputs).hasMore
    decreases |inputs|
  {
    if |inputs| > 0 {
      HasMoreNeverReturns(Step(s, inputs[0]).0, inputs[1..]);
    }
  }

  /** The page number never goes down. */
  lemma {:induction false} PageNeverDecreases(s: State, inputs: seq<Input>)
    ensures Run(s, inputs).page >= s.page
    decreases |inputs|
  {
    if |inputs| > 0 {
      PageNeverDecreases(Step(s, inputs[0]).0, inputs[1..]);
    }
  }

  /** Search results are not dropped when the search box is cleared: the
      effect refetches the current page, and that page's videos are
      appended after the search results, behind the samples. */
  lemma SearchResultsStayAfterClearing(s: State, term: string, found: seq<Video>, pageData: seq<Video>)
    requires s.searchTerm == "" && term != ""
    requires |found| > 0 && |pageData| > 0
    ensures var (s1, e1) := Step(s, Typed(term));
            var s2 := Step(s1, SearchArrived(found)).0;
            var (s3, e3) := Step(s2, Typed(""));
            var s4 := Step(s3, PageArrived(pageData)).0;
            && e1 == [FetchSearch(term)]
            && e3 == [FetchPage(s.page)]
            && AllVideos(s4) == SampleVideos + found + pageData
  {
  }
}

=== FILE: metrics.dfy ===
/** The three metric kinds, the JSON values a request body carries, the
    body validators that run before the auth gate, and the readings that are
    persisted. Timestamps are opaque ordered instants (`new Date(...)`
    parsing and formatting are not modelled). */
module Metrics {
  import opened Wrappers
  import opened JsText

  type Time = int

  /** A JSON value in a request body. Numbers are integers here. */
  datatype Value = Num(n: int) | Str(s: string) | Bool(b: bool) | Null

  type Body = map<string, Value>

  /** `req.body[name]`, with `None` for `undefined`. */
  function Field(body: Body, name: string): (v: Option<Value>)
    ensures v.Some? <==> name in body
    ensures v.Some? ==> v.value == body[name]
  {
    if name in body then Some(body[name]) else None
  }

  /** JavaScript truthiness of a body field. */
  predicate Truthy(v: Option<Value>) {
    match v
    case None => false
    case Some(Num(n)) => n != 0
    case Some(Str(s)) => s != ""
    case Some(Bool(b)) => b
    case Some(Null) => false
  }

  /** The string a standard validator sees for a field: `undefined` and
      `null` become the empty string, other values their `String(...)`. */
  function ValidatorText(v: Option<Value>): string {
    match v
    case None => ""
    case Some(Null) => ""
    case Some(Num(n)) => NumberText(n)
    case Some(Str(s)) => s
    case Some(Bool(b)) => if b then "true" else "false"
  }

  datatype Rule = IsNumeric | IsString

  /** `check(field).<rule>().withMessage(message)`. */
  datatype Check = Check(field: string, rule: Rule, message: string)

  /** One entry of `validationResult(req).array()`. */
  datatype FieldError = FieldError(path: string, value: Option<Value>, msg: string)

  predicate Passes(c: Check, body: Body) {
    match c.rule
    case IsNumeric => IsNumericText(ValidatorText(Field(body, c.field)))
    case IsString => Field(body, c.field).Some? && Field(body, c.field).value.Str?
  }

  /** A numeric check fails on a missing field, and passes on a number
      exactly when the number is below 10^21 in magnitude. */
  lemma NumericCheckOnValues(c: Check, body: Body)
    requires c.rule == IsNumeric
    ensures c.field !in body ==> !Passes(c, body)
    ensures c.field in body && body[c.field].Num?
            ==> (Passes(c, body) <==> -ExponentFrom < body[c.field].n < ExponentFrom)
  {
    if c.field in body && body[c.field].Num? {
      NumberTextIsNumeric(body[c.field].n);
    }
  }

  function ErrorFor(c: Check, body: Body): FieldError {
    FieldError(c.field, Field(body, c.field), c.message)
  }

  /** Every check runs and only records its failure; the result lists one
      error per failing check, in the order the checks were declared. */
  function Validate(checks: seq<Check>, body: Body): (errors: seq<FieldError>)
    ensures |errors| <= |checks|
    ensures errors == [] <==> forall i :: 0 <= i < |checks| ==> Passes(checks[i], body)
    ensures forall i :: 0 <= i < |checks| && !Passes(checks[i], body) ==> ErrorFor(checks[i], body) in errors
    ensures forall k :: 0 <= k < |errors| ==>
      exists i :: 0 <= i < |checks| && !Passes(checks[i], body) && errors[k] == ErrorFor(checks[i], body)
  {
    if |checks| == 0 then []
    else
      var head := if Passes(checks[0], body) then [] else [ErrorFor(checks[0], body)];
      var tail := Validate(checks[1..], body);
      assert forall i :: 1 <= i < |checks| ==> checks[i] == checks[1..][i - 1];
      head + tail
  }

  /** One check gives no error when it passes and exactly its own error
      otherwise. */
  lemma ValidateSingle(c: Check, body: Body)
    ensures Validate([c], body) == if Passes(c, body) then [] else [ErrorFor(c, body)]
  {
    assert [c][1..] == [];
  }

  /** A non-empty chain reports its first check's error, if any, ahead of
      the errors of the rest. */
  lemma ValidateUnfold(cs: seq<Check>, body: Body)
    requires 0 < |cs|
    ensures Validate(cs, body)
            == (if Passes(cs[0], body) then [] else [ErrorFor(cs[0], body)]) + Validate(cs[1..], body)
  {
  }

  lemma ConcatAssociates(x: seq<FieldError>, y: seq<FieldError>, z: seq<FieldError>)
    ensures x + (y + z) == (x + y) + z
  {
  }

  /** The errors of a chain are the errors of its first part followed by
      those of the rest: errors come out in declaration order, one per
      failing check, with nothing repeated or reordered. */
  lemma {:induction false} ValidateAppend(a: seq<Check>, b: seq<Check>, body: Body)
    ensures Validate(a + b, body) == Validate(a, body) + Validate(b, body)
    decreases |a|
  {
    if |a| > 0 {
      assert (a + b)[0] == a[0];
      assert (a + b)[1..] == a[1..] + b;
      ValidateUnfold(a + b, body);
      ValidateUnfold(a, body);
      ValidateAppend(a[1..], b, body);
      var head := if Passes(a[0], body) then [] else [ErrorFor(a[0], body)];
      ConcatAssociates(head, Validate(a[1..], body), Validate(b, body));
    } else {
      assert a + b == b;
    }
  }

  datatype Metric = BloodPressure | SpO2 | Weight

  /** The validator chain each POST route declares. */
  function Checks(m: Metric): (cs: seq<Check>)
    ensures FieldsOf(m) == set i | 0 <= i < |cs| :: cs[i].field
    ensures forall i :: 0 <= i < |cs| ==> (cs[i].rule == IsString <==> cs[i].field == "day")
  {
    var cs := match m
      case BloodPressure => [
        Check("systolic", IsNumeric, "Systolic value must be numeric"),
        Check("diastolic", IsNumeric, "Diastolic value must be numeric")]
      case SpO2 => [Check("spO2", IsNumeric, "SpO2 value must be numeric")]
      case Weight => [
        Check("weight", IsNumeric, "Weight value must be numeric"),
        Check("day", IsString, "Day must be a string")];
    assert cs[0].field in set i | 0 <= i < |cs| :: cs[i].field;
    assert |cs| > 1 ==> cs[1].field in set i | 0 <= i < |cs| :: cs[i].field;
    cs
  }

  function FieldsOf(m: Metric): set<string> {
    match m
    case BloodPressure => {"systolic", "diastolic"}
    case SpO2 => {"spO2"}
    case Weight => {"weight", "day"}
  }

  /** The socket event announcing a new reading of each kind. */
  function EventName(m: Metric): string {
    match m
    case BloodPressure => "newBloodPressure"
    case SpO2 => "newSpO2"
    case Weight => "newWeight"
  }

  /** Each kind has its own event name, so a listener for one name receives
      readings of that kind only. */
  lemma EventNamesDistinct(a: Metric, b: Metric)
    ensures EventName(a) == EventName(b) ==> a == b
  {
  }

  /** A persisted reading; `id` stands for the generated document id. */
  datatype Reading =
    | BPReading(id: nat, systolic: Value, diastolic: Value, timestamp: Time)
    | SpO2Reading(id: nat, spO2: Value, timestamp: Time)
    | WeightReading(id: nat, weight: Value, day: string, timestamp: Time)
  {
    function Kind(): Metric {
      match this
      case BPReading(_, _, _, _) => BloodPressure
      case SpO2Reading(_, _, _) => SpO2
      case WeightReading(_, _, _, _) => Weight
    }
  }

  /** `timestamp ? new Date(timestamp) : new Date()`: a falsy timestamp
      (missing, `null`, `""`, `0`, `false`) is replaced by the server's
      current time. */
  function Stamp(supplied: Option<Value>, now: Time, toDate: Value -> Time): (t: Time)
    ensures Truthy(supplied) ==> t == toDate(supplied.value)
    ensures !Truthy(supplied) ==> t == now
  {
    if Truthy(supplied) then toDate(supplied.value) else now
  }

  /** The document built from a body that passed its kind's validators. */
  function BuildRecord(m: Metric, body: Body, id: nat, t: Time): (r: Reading)
    requires Validate(Checks(m), body) == []
    ensures r.Kind() == m && r.id == id && r.timestamp == t
    ensures r.BPReading? ==> "systolic" in body && "diastolic" in body
                             && r.systolic == body["systolic"] && r.diastolic == body["diastolic"]
    ensures r.SpO2Reading? ==> "spO2" in body && r.spO2 == body["spO2"]
    ensures r.WeightReading? ==> "weight" in body && "day" in body
                                 && r.weight == body["weight"] && Str(r.day) == body["day"]
  {
    var checks := Checks(m);
    assert Passes(checks[0], body);
    NumericCheckOnValues(checks[0], body);
    match m
    case BloodPressure =>
      assert Passes(checks[1], body);
      NumericCheckOnValues(checks[1], body);
      BPReading(id, body["systolic"], body["diastolic"], t)
    case SpO2 =>
      SpO2Reading(id, body["spO2"], t)
    case Weight =>
      assert Passes(checks[1], body);
      WeightReading(id, body["weight"], body["day"].s, t)
  }
}

=== FILE: passport.dfy ===
/** The Google OAuth strategy's verify callback and the session
    (de)serialisation hooks. The callback receives the provider's profile;
    `done(error, user)` is modelled as a `Done` value. */
module Passport {
  import opened Wrappers
  import opened Users
  import Storage

  /** `profile.name`: a missing part is JavaScript's `undefined`. */
  datatype Name = Name(givenName: Option<string>, familyName: Option<string>)

  /** The parts of a passport Google profile the callback reads. The
      provider leaves `name` out when it knows no name part, and `emails`
      out when it knows no email. */
  datatype Profile = Profile(id: string, name: Option<Name>, emails: Option<seq<string>>)

  /** `done(error, user)`: exactly one of the two is present, except that
      deserialising an unknown id reports neither. */
  datatype Done = Done(error: Option<string>, user: Option<User>)

  /** What V8 throws for `profile.name.givenName` without a `name`. */
  const NoNameError := "Cannot read properties of undefined (reading 'givenName')"

  /** What V8 throws for `profile.emails[0]` without an `emails` list. */
  const NoEmailListError := "Cannot read properties of undefined (reading '0')"

  /** What V8 throws for `profile.emails[0].value` when the list is empty. */
  const NoEmailError := "Cannot read properties of undefined (reading 'value')"

  /** String concatenation renders `undefined` as the text "undefined". */
  function ConcatText(part: Option<string>): (t: string)
    ensures part.Some? ==> t == part.value
    ensures part.None? ==> t == "undefined"
  {
    match part
    case Some(s) => s
    case None => "undefined"
  }

  /** `givenName + ' ' + familyName`: both parts joined by one space, a
      missing part written as "undefined". */
  function FullName(n: Name): (name: string)
    ensures n.givenName.Some? && n.familyName.Some?
            ==> name == n.givenName.value + " " + n.familyName.value
    ensures n.givenName.Some? ==> |name| > |n.givenName.value|
                                  && name[..|n.givenName.value| + 1] == n.givenName.value + " "
    ensures n.familyName.Some? ==> |name| > |n.familyName.value|
                                   && name[|name| - |n.familyName.value| - 1..] == " " + n.familyName.value
    ensures n.givenName.None? ==> |name| >= 10 && name[..10] == "undefined "
    ensures n.familyName.None? ==> |name| >= 10 && name[|name| - 10..] == " undefined"
  {
    var given, family := ConcatText(n.givenName), ConcatText(n.familyName);
    JoinedParts(given, family);
    given + " " + family
  }

  /** The parts of `given + " " + family` can be read back from either end. */
  lemma JoinedParts(given: string, family: string)
    ensures var name := given + " " + family;
            && |name| == |given| + 1 + |family|
            && name[..|given| + 1] == given + " "
            && name[|name| - |family| - 1..] == " " + family
  {
    var name := given + " " + family;
    assert name == (given + " ") + family;
    assert name == given + (" " + family);
  }

  /** The new user's full name and email, read in the order the object
      literal evaluates them: the name first, then the first email. A
      missing part of the profile throws a TypeError. */
  function NewUserFields(p: Profile): (r: Result<(string, string)>)
    ensures r.Ok? <==> p.name.Some? && p.emails.Some? && 0 < |p.emails.value|
    ensures r.Ok? ==> r.value.0 == FullName(p.name.value) && r.value.1 == p.emails.value[0]
    ensures p.name.None? ==> r == Err(NoNameError)
    ensures p.name.Some? && p.emails.None? ==> r == Err(NoEmailListError)
    ensures p.name.Some? && p.emails == Some([]) ==> r == Err(NoEmailError)
  {
    match p.name
    case None => Err(NoNameError)
    case Some(n) =>
      match p.emails
      case None => Err(NoEmailListError)
      case Some(emails) =>
        if |emails| == 0 then Err(NoEmailError) else Ok((FullName(n), emails[0]))
  }

  /** The verify callback: the first user with `googleId == profile.id` is
      returned as it is; otherwise one user with that Google id, the
      profile's full name and its first email is saved and returned. A
      failed lookup, a profile without name or email, or a failed save is
      reported as `done(error, null)` with nothing saved. */
  function VerifyCallback(d: Directory, profile: Profile, db: Storage.Ops): (r: (Done, Directory))
    ensures r.0.error.Some? <==> r.0.user.None?
    ensures r.0.error.Some? ==> r.1 == d
    ensures db.find.Fails? ==> r == (Done(Some(db.find.message), None), d)
    ensures db.find.Succeeds? && FindByGoogleId(d, profile.id).Some?
            ==> r == (Done(None, FindByGoogleId(d, profile.id)), d)
    ensures r.1 == d || (
              && r.0.user.Some?
              && r.1 == d + [r.0.user.value]
              && FindByGoogleId(d, profile.id).None?
              && r.0.user.value.googleId == Some(profile.id)
              && profile.name.Some? && profile.emails.Some? && 0 < |profile.emails.value|
              && r.0.user.value.fullname == FullName(profile.name.value)
              && r.0.user.value.email == profile.emails.value[0])
    ensures db.find.Succeeds? && FindByGoogleId(d, profile.id).None? && NewUserFields(profile).Err?
            ==> r == (Done(Some(NewUserFields(profile).message), None), d)
    ensures db.find.Succeeds? && FindByGoogleId(d, profile.id).None? && NewUserFields(profile).Ok?
            && db.save.Fails?
            ==> r == (Done(Some(db.save.message), None), d)
    ensures db.find.Succeeds? && FindByGoogleId(d, profile.id).None? && NewUserFields(profile).Ok?
            && db.save.Succeeds?
            ==> r.0.user.Some? && r.1 == d + [r.0.user.value]
    ensures r.0.user.Some? ==> r.0.user.value in r.1 && r.0.user.value.googleId == Some(profile.id)
    ensures IdsUnique(d) ==> IdsUnique(r.1)
    ensures GoogleIdsUnique(d) ==> GoogleIdsUnique(r.1)
  {
    if db.find.Fails? then (Done(Some(db.find.message), None), d)
    else match FindByGoogleId(d, profile.id)
      case Some(existing) => (Done(None, Some(existing)), d)
      case None =>
        match NewUserFields(profile)
        case Err(message) => (Done(Some(message), None), d)
        case Ok((fullname, email)) =>
          if db.save.Fails? then (Done(Some(db.save.message), None), d)
          else
            var (d', u) := Register(d, fullname, email, Some(profile.id));
            (Done(None, Some(u)), d')
  }

  /** Signing in twice with the same Google profile: the second call returns
      the user the first one returned and saves nothing. */
  lemma RepeatedSignInSameUser(d: Directory, profile: Profile, db1: Storage.Ops, db2: Storage.Ops)
    requires VerifyCallback(d, profile, db1).0.user.Some?
    requires db2.find.Succeeds?
    ensures var (first, d1) := VerifyCallback(d, profile, db1);
            VerifyCallback(d1, profile, db2) == (first, d1)
  {
    var (first, d1) := VerifyCallback(d, profile, db1);
    if d1 != d {
      var u := first.user.value;
      assert d1[|d|] == u;
      assert FindByGoogleId(d1, profile.id) == Some(u) by {
        var f := FindByGoogleId(d1, profile.id);
        assert f.Some?;
        var j :| 0 <= j < |d1| && d1[j] == f.value;
        assert j == |d|;
      }
    }
  }

  /** The callback looks users up by Google id only: a user who signed up
      through the token route (no Google id) and then signs in through the
      strategy with the same email gets a second user record, so emails are
      no longer unique. */
  lemma StrategyCanDuplicateEmail()
    ensures var d := [User(0, "Ann Lee", "ann@example.org", None)];
            var profile := Profile("g-1", Some(Name(Some("Ann"), Some("Lee"))), Some(["ann@example.org"]));
            var (done, d') := VerifyCallback(d, profile, Storage.Ops(Storage.Succeeds, Storage.Succeeds));
            && EmailsUnique(d)
            && done.user.Some?
            && d' == d + [done.user.value]
            && !EmailsUnique(d')
  {
    var d := [User(0, "Ann Lee", "ann@example.org", None)];
    var profile := Profile("g-1", Some(Name(Some("Ann"), Some("Lee"))), Some(["ann@example.org"]));
    assert FindByGoogleId(d, "g-1").None? by {
      assert d[0].googleId != Some("g-1");
    }
    var (done, d') := VerifyCallback(d, profile, Storage.Ops(Storage.Succeeds, Storage.Succeeds));
    assert d'[1] == done.user.value;
    assert d'[0].email == d'[1].email;
  }

  /** `serializeUser`: the session keeps only the user's id. */
  function SerializeUser(u: User): UserId {
    u.id
  }

  /** `deserializeUser`: `User.findById(id)`; an unknown id gives
      `done(null, null)`, a failed lookup `done(error, null)`. */
  function DeserializeUser(d: Directory, id: UserId, db: Storage.Ops): (r: Done)
    ensures r.error.Some? <==> db.find.Fails?
    ensures r.user.Some? ==> r.user.value in d && r.user.value.id == id
    ensures db.find.Succeeds? && r.user.None? ==> forall i :: 0 <= i < |d| ==> d[i].id != id
  {
    if db.find.Fails? then Done(Some(db.find.message), None)
    else Done(None, FindById(d, id))
  }

  /** Round trip: with unique ids, deserialising a serialised user that is
      in the directory gives that same user back. */
  lemma SerializeRoundTrip(d: Directory, u: User, db: Storage.Ops)
    requires IdsUnique(d)
    requires u in d
    requires db.find.Succeeds?
    ensures DeserializeUser(d, SerializeUser(u), db) == Done(None, Some(u))
  {
    FindOwnId(d, u);
  }
}

=== FILE: server.dfy ===
/** The route handlers of the backend over an in-memory world: the user
    directory, the three metric collections, and the log of broadcast socket
    events (`io.emit` appends one event). Each handler takes the world, the
    request, the environment's oracles and what the store does on this
    request, and gives back the response and the new world. */
module Server {
  import opened Wrappers
  import opened JsText
  import opened Users
  import opened Auth
  import opened Metrics
  import opened Listing
  import Storage

  /** One `io.emit(name, record)`. */
  datatype Event = Event(name: string, record: Reading)

  datatype World = World(
    users: Directory,
    bloodPressure: seq<Reading>,
    spo2: seq<Reading>,
    weight: seq<Reading>,
    events: seq<Event>)

  const EmptyWorld := World([], [], [], [], [])

  function Collection(w: World, m: Metric): seq<Reading> {
    match m
    case BloodPressure => w.bloodPressure
    case SpO2 => w.spo2
    case Weight => w.weight
  }

  function WithCollection(w: World, m: Metric, s: seq<Reading>): (w': World)
    ensures Collection(w', m) == s
    ensures forall k: Metric :: k != m ==> Collection(w', k) == Collection(w, k)
    ensures w'.users == w.users && w'.events == w.events
  {
    match m
    case BloodPressure => w.(bloodPressure := s)
    case SpO2 => w.(spo2 := s)
    case Weight => w.(weight := s)
  }

  /** The readings a listener for one kind's event name has received, in
      emission order. */
  function Broadcast(events: seq<Event>, m: Metric): seq<Reading> {
    if |events| == 0 then []
    else
      var last := events[|events| - 1];
      Broadcast(events[..|events| - 1], m) + (if last.name == EventName(m) then [last.record] else [])
  }

  lemma BroadcastAppend(events: seq<Event>, e: Event, m: Metric)
    ensures Broadcast(events + [e], m) == Broadcast(events, m) + (if e.name == EventName(m) then [e.record] else [])
  {
    assert (events + [e])[..|events|] == events;
  }

  /** The invariant every handler keeps: user ids and emails are unique,
      each collection holds readings of its own kind numbered by position,
      and for every kind the broadcast readings are exactly the saved ones,
      in the order they were saved. */
  predicate Wf(w: World) {
    && IdsUnique(w.users)
    && EmailsUnique(w.users)
    && (forall m: Metric, i :: 0 <= i < |Collection(w, m)| ==>
          Collection(w, m)[i].Kind() == m && Collection(w, m)[i].id == i)
    && (forall m: Metric :: Broadcast(w.events, m) == Collection(w, m))
  }

  lemma EmptyWorldWf()
    ensures Wf(EmptyWorld)
  {
  }

  datatype Request = Request(authorization: Option<string>, body: Body, query: map<string, string>)

  function Query(req: Request, name: string): Option<string> {
    if name in req.query then Some(req.query[name]) else None
  }

  /** The verified claims of a Google ID token the handlers use. */
  datatype GoogleClaims = GoogleClaims(email: string, name: string)

  /** The oracles the server consults: JWT verification and signing with the
      server secret, Google's `verifyIdToken` (which throws, carrying a
      message, on a bad, expired or missing token), `new Date(timestamp)`,
      and the current time. */
  datatype Env = Env(
    verifyToken: Verifier,
    signToken: Signer,
    verifyIdToken: Option<Value> -> Result<GoogleClaims>,
    toDate: Value -> Time,
    now: Time)

  datatype ResponseBody =
    | Text(text: string)
    | Error(error: string)
    | Invalid(errors: seq<FieldError>)
    | Session(message: string, accessToken: string, user: User)
    | Record(record: Reading)
    | Page(data: seq<Reading>, currentPage: int, totalEntries: nat, hasMore: bool)
    | List(items: seq<Reading>)

  /** A response; `totalCount` is the `x-total-count` header. */
  datatype Response = Response(status: int, totalCount: Option<nat>, body: ResponseBody)

  datatype Outcome = Outcome(response: Response, world: World)

  const UserExists := "User already exists. Please log in instead."

  /** Anything thrown inside the sign-up and login handlers, including a
      store failure, is answered as an invalid Google token. */
  function InvalidGoogleToken(w: World, message: string): (out: Outcome)
    ensures out.response.status == 400 && out.world == w
  {
    Outcome(Response(400, None, Error("Invalid Google token: " + message)), w)
  }

  function Claims(req: Request, field: string, env: Env): Result<GoogleClaims> {
    env.verifyIdToken(Field(req.body, field))
  }

  /** POST /api/auth/google/signup. The ID token is read from `id_token`.
      An existing email is refused; otherwise one user is added and an
      access token for it returned. */
  function SignUp(w: World, req: Request, env: Env, db: Storage.Ops): (out: Outcome)
    ensures out.response.status in {201, 400}
    ensures out.world.(users := w.users) == w
    ensures out.response.status == 400 ==> out.world == w
    ensures Claims(req, "id_token", env).Ok? && db.find.Succeeds?
              && FindByEmail(w.users, Claims(req, "id_token", env).value.email).Some?
            ==> out == Outcome(Response(400, None, Error(UserExists)), w)
    ensures Claims(req, "id_token", env).Err?
            ==> out == InvalidGoogleToken(w, Claims(req, "id_token", env).message)
    ensures Claims(req, "id_token", env).Ok? && db.find.Fails?
            ==> out == InvalidGoogleToken(w, db.find.message)
    ensures Claims(req, "id_token", env).Ok? && db.find.Succeeds?
              && FindByEmail(w.users, Claims(req, "id_token", env).value.email).None? && db.save.Fails?
            ==> out == InvalidGoogleToken(w, db.save.message)
    ensures out.response.status == 201 ==>
              && Claims(req, "id_token", env).Ok?
              && db.find.Succeeds? && db.save.Succeeds?
              && FindByEmail(w.users, Claims(req, "id_token", env).value.email).None?
              && out.response.body.Session?
              && out.world.users == w.users + [out.response.body.user]
              && out.response.body.user.email == Claims(req, "id_token", env).value.email
              && out.response.body.user.fullname == Claims(req, "id_token", env).value.name
              && out.response.body.user.googleId.None?
              && out.response.body.accessToken == CreateTokenForUser(out.response.body.user, env.signToken)
    ensures Claims(req, "id_token", env).Ok? && db.find.Succeeds?
              && FindByEmail(w.users, Claims(req, "id_token", env).value.email).None? && db.save.Succeeds?
            ==> out.response.status == 201
    ensures IdsUnique(w.users) ==> IdsUnique(out.world.users)
    ensures EmailsUnique(w.users) ==> EmailsUnique(out.world.users)
  {
    match Claims(req, "id_token", env)
    case Err(message) => InvalidGoogleToken(w, message)
    case Ok(claims) =>
      if db.find.Fails? then InvalidGoogleToken(w, db.find.message)
      else if FindByEmail(w.users, claims.email).Some? then
        Outcome(Response(400, None, Error(UserExists)), w)
      else if db.save.Fails? then InvalidGoogleToken(w, db.save.message)
      else
        var (users, user) := Register(w.users, claims.name, claims.email, None);
        var token := CreateTokenForUser(user, env.signToken);
        Outcome(Response(201, None, Session("Signed up successfully", token, user)), w.(users := users))
  }

  /** POST /api/auth/google/login. The ID token is read from `idToken`.
      Find-or-create by email: a known email logs in as the first user with
      it, an unknown one is added first. */
  function LogIn(w: World, req: Request, env: Env, db: Storage.Ops): (out: Outcome)
    ensures out.response.status in {200, 400}
    ensures out.world.(users := w.users) == w
    ensures |w.users| <= |out.world.users| <= |w.users| + 1
    ensures out.world.users[..|w.users|] == w.users
    ensures out.response.status == 400 ==> out.world == w
    ensures Claims(req, "idToken", env).Ok? && db.find.Succeeds?
              && FindByEmail(w.users, Claims(req, "idToken", env).value.email).Some?
            ==> out.world == w && out.response.status == 200
                && out.response.body.Session?
                && out.response.body.user == FindByEmail(w.users, Claims(req, "idToken", env).value.email).value
    ensures Claims(req, "idToken", env).Err?
            ==> out == InvalidGoogleToken(w, Claims(req, "idToken", env).message)
    ensures Claims(req, "idToken", env).Ok? && db.find.Fails?
            ==> out == InvalidGoogleToken(w, db.find.message)
    ensures Claims(req, "idToken", env).Ok? && db.find.Succeeds?
              && FindByEmail(w.users, Claims(req, "idToken", env).value.email).None? && db.save.Fails?
            ==> out == InvalidGoogleToken(w, db.save.message)
    ensures out.response.status == 200 ==>
              && Claims(req, "idToken", env).Ok?
              && db.find.Succeeds?
              && out.response.body.Session?
              && out.response.body.user.email == Claims(req, "idToken", env).value.email
              && out.response.body.user in out.world.users
              && out.response.body.accessToken == CreateTokenForUser(out.response.body.user, env.signToken)
    ensures Claims(req, "idToken", env).Ok? && db.find.Succeeds?
              && FindByEmail(w.users, Claims(req, "idToken", env).value.email).None? && db.save.Succeeds?
            ==> && out.response.status == 200
                && out.response.body.Session?
                && out.world.users == w.users + [out.response.body.user]
                && out.response.body.user.email == Claims(req, "idToken", env).value.email
                && out.response.body.user.fullname == Claims(req, "idToken", env).value.name
                && out.response.body.user.googleId.None?
    ensures IdsUnique(w.users) ==> IdsUnique(out.world.users)
    ensures EmailsUnique(w.users) ==> EmailsUnique(out.world.users)
  {
    match Claims(req, "idToken", env)
    case Err(message) => InvalidGoogleToken(w, message)
    case Ok(claims) =>
      if db.find.Fails? then InvalidGoogleToken(w, db.find.message)
      else match FindByEmail(w.users, claims.email)
        case Some(user) =>
          var token := CreateTokenForUser(user, env.signToken);
          Outcome(Response(200, None, Session("Logged in successfully", token, user)), w)
        case None =>
          if db.save.Fails? then InvalidGoogleToken(w, db.save.message)
          else
            var (users, user) := Register(w.users, claims.name, claims.email, None);
            assert users[..|w.users|] == w.users;
            var token := CreateTokenForUser(user, env.signToken);
            Outcome(Response(200, None, Session("Logged in successfully", token, user)), w.(users := users))
  }

  /** What a failed save answers: plain text with 400 for blood pressure,
      JSON with 500 for the other two kinds. */
  function SaveFailure(m: Metric, message: string): (r: Response)
    ensures r.status == (if m == BloodPressure then 400 else 500)
  {
    match m
    case BloodPressure => Response(400, None, Text("Error saving blood pressure entry: " + message))
    case SpO2 => Response(500, None, Error("Error saving SpO2 data: " + message))
    case Weight => Response(500, None, Error("Error saving weight data: " + message))
  }

  /** POST /api/bloodpressure, /api/spo2 and /api/weight. The validators run
      first but only record errors; the auth gate answers before the
      handler looks at them. */
  function Create(m: Metric, w: World, req: Request, env: Env, db: Storage.Ops): (out: Outcome)
    ensures (req.authorization.None? || req.authorization == Some(""))
            ==> out.response == Response(401, None, Text("Unauthorized")) && out.world == w
    ensures RequireAuth(req.authorization, env.verifyToken).Rejected?
            ==> out == Outcome(Response(RequireAuth(req.authorization, env.verifyToken).status, None,
                                        Text(RequireAuth(req.authorization, env.verifyToken).text)), w)
    ensures RequireAuth(req.authorization, env.verifyToken).Admitted? && Validate(Checks(m), req.body) != []
            ==> out.response == Response(400, None, Invalid(Validate(Checks(m), req.body))) && out.world == w
    ensures RequireAuth(req.authorization, env.verifyToken).Admitted? && Validate(Checks(m), req.body) == [] && db.save.Fails?
            ==> out.response.status == (if m == BloodPressure then 400 else 500) && out.world == w
    ensures out.response.status == 201 <==>
              (RequireAuth(req.authorization, env.verifyToken).Admitted? && Validate(Checks(m), req.body) == [] && db.save.Succeeds?)
    ensures out.response.status != 201 ==> out.world == w
    ensures out.response.status == 201 ==>
              && out.response.body.Record?
              && out.response.body.record.Kind() == m
              && out.response.body.record.id == |Collection(w, m)|
              && out.response.body.record.timestamp == Stamp(Field(req.body, "timestamp"), env.now, env.toDate)
              && out.response.body.record
                 == BuildRecord(m, req.body, |Collection(w, m)|, Stamp(Field(req.body, "timestamp"), env.now, env.toDate))
              && Collection(out.world, m) == Collection(w, m) + [out.response.body.record]
              && out.world.events == w.events + [Event(EventName(m), out.response.body.record)]
              && (forall k: Metric :: k != m ==> Collection(out.world, k) == Collection(w, k))
              && out.world.users == w.users
  {
    var errors := Validate(Checks(m), req.body);
    match RequireAuth(req.authorization, env.verifyToken)
    case Rejected(status, text) => Outcome(Response(status, None, Text(text)), w)
    case Admitted(_) =>
      if errors != [] then Outcome(Response(400, None, Invalid(errors)), w)
      else
        var stamp := Stamp(Field(req.body, "timestamp"), env.now, env.toDate);
        var record := BuildRecord(m, req.body, |Collection(w, m)|, stamp);
        if db.save.Fails? then Outcome(SaveFailure(m, db.save.message), w)
        else
          Outcome(Response(201, None, Record(record)), Saved(w, m, record))
  }

  /** The world after saving `record` in `m`'s collection and emitting it
      under `m`'s event name. */
  function Saved(w: World, m: Metric, record: Reading): (w': World)
    ensures Collection(w', m) == Collection(w, m) + [record]
    ensures forall k: Metric :: k != m ==> Collection(w', k) == Collection(w, k)
    ensures w'.events == w.events + [Event(EventName(m), record)]
    ensures w'.users == w.users
  {
    WithCollection(w, m, Collection(w, m) + [record]).(events := w.events + [Event(EventName(m), record)])
  }

  function Abs(n: int): nat {
    if n < 0 then -n else n
  }

  /** The store refuses a negative `skip`; the handler reports it like any
      other store failure. */
  const NegativeSkip := "skip value must be non-negative"

  /** The requested page, `parseInt(req.query.page, 10) || 1`. */
  function PageOf(req: Request): (page: int)
    ensures page != 0
  {
    ParseIntOr(Query(req, "page"), 1)
  }

  /** The page size, `parseInt(req.query.limit, 10) || 10`. */
  function LimitOf(req: Request): (limit: int)
    ensures limit != 0
  {
    ParseIntOr(Query(req, "limit"), 10)
  }

  function SkipOf(req: Request): int {
    (PageOf(req) - 1) * LimitOf(req)
  }

  /** The 200 reply of GET /api/bloodpressure for a non-negative skip: the
      page of the time-ordered collection, the total in body and header, and
      whether a later page holds anything. */
  function PageResponse(all: seq<Reading>, page: int, limit: int): (r: Response)
    requires 0 <= (page - 1) * limit
    ensures r.status == 200 && r.totalCount == Some(|all|) && r.body.Page?
    ensures r.body.currentPage == page && r.body.totalEntries == |all|
    ensures r.body.hasMore <==> page * limit < |all|
    ensures IsWindow(r.body.data, SortByTime(all), (page - 1) * limit, Abs(limit))
  {
    var total := |all|;
    Response(200, Some(total), Page(Window(SortByTime(all), (page - 1) * limit, Abs(limit)), page, total, page * limit < total))
  }

  /** GET /api/bloodpressure. A negative `limit` asks the store for at most
      `|limit|` documents. */
  function ListBloodPressure(w: World, req: Request, env: Env, db: Storage.Ops): (out: Outcome)
    ensures out.world == w
    ensures (req.authorization.None? || req.authorization == Some(""))
            ==> out.response == Response(401, None, Text("Unauthorized"))
    ensures RequireAuth(req.authorization, env.verifyToken).Rejected?
            ==> out == Outcome(Response(RequireAuth(req.authorization, env.verifyToken).status, None,
                                        Text(RequireAuth(req.authorization, env.verifyToken).text)), w)
    ensures out.response.status in {200, 401, 403, 500}
    ensures out.response.status == 200 <==>
              RequireAuth(req.authorization, env.verifyToken).Admitted? && db.find.Succeeds? && 0 <= SkipOf(req)
    ensures RequireAuth(req.authorization, env.verifyToken).Admitted? && (db.find.Fails? || SkipOf(req) < 0)
            ==> out.response.status == 500 && out.response.body.Text?
    ensures out.response.status == 200 ==>
              && out.response.totalCount == Some(|w.bloodPressure|)
              && out.response.body.Page?
              && out.response.body.currentPage == PageOf(req)
              && out.response.body.totalEntries == |w.bloodPressure|
              && (out.response.body.hasMore <==> PageOf(req) * LimitOf(req) < |w.bloodPressure|)
              && IsWindow(out.response.body.data, SortByTime(w.bloodPressure), SkipOf(req), Abs(LimitOf(req)))
  {
    match RequireAuth(req.authorization, env.verifyToken)
    case Rejected(status, text) => Outcome(Response(status, None, Text(text)), w)
    case Admitted(_) =>
      if db.find.Fails? then
        Outcome(Response(500, None, Text("Error retrieving blood pressure data: " + db.find.message)), w)
      else if SkipOf(req) < 0 then
        Outcome(Response(500, None, Text("Error retrieving blood pressure data: " + NegativeSkip)), w)
      else
        Outcome(PageResponse(w.bloodPressure, PageOf(req), LimitOf(req)), w)
  }

  /** GET /api/spo2 and GET /api/weight: the whole collection in ascending
      timestamp order, unpaginated. */
  function ListAll(m: Metric, w: World, req: Request, env: Env, db: Storage.Ops): (out: Outcome)
    requires m != BloodPressure
    ensures out.world == w
    ensures (req.authorization.None? || req.authorization == Some(""))
            ==> out.response == Response(401, None, Text("Unauthorized"))
    ensures RequireAuth(req.authorization, env.verifyToken).Rejected?
            ==> out == Outcome(Response(RequireAuth(req.authorization, env.verifyToken).status, None,
                                        Text(RequireAuth(req.authorization, env.verifyToken).text)), w)
    ensures out.response.status in {200, 401, 403, 500}
    ensures out.response.status == 200 <==> RequireAuth(req.authorization, env.verifyToken).Admitted? && db.find.Succeeds?
    ensures RequireAuth(req.authorization, env.verifyToken).Admitted? && db.find.Fails?
            ==> out.response.status == 500 && out.response.body.Error?
    ensures out.response.status == 200 ==>
              && out.response.body.List?
              && SortedByTime(out.response.body.items)
              && multiset(out.response.body.items) == multiset(Collection(w, m))
  {
    match RequireAuth(req.authorization, env.verifyToken)
    case Rejected(status, text) => Outcome(Response(status, None, Text(text)), w)
    case Admitted(_) =>
      if db.find.Fails? then
        var prefix := if m == SpO2 then "Error retrieving SpO2 data: " else "Error retrieving weight data: ";
        Outcome(Response(500, None, Error(prefix + db.find.message)), w)
      else
        Outcome(Response(200, None, List(SortByTime(Collection(w, m)))), w)
  }

  datatype Route =
    | SignUpRoute
    | LogInRoute
    | CreateRoute(metric: Metric)
    | ListBloodPressureRoute
    | ListSpO2Route
    | ListWeightRoute

  /** The routes mounted behind `requireAuth`. */
  predicate Protected(r: Route) {
    !r.SignUpRoute? && !r.LogInRoute?
  }

  /** The route table: the gate answers every protected route first, only
      the two sign-in routes touch the users, and only the create routes
      touch the readings and the event stream. */
  function Handle(r: Route, w: World, req: Request, env: Env, db: Storage.Ops): (out: Outcome)
    ensures Protected(r) && RequireAuth(req.authorization, env.verifyToken).Rejected?
            ==> out == Outcome(Response(RequireAuth(req.authorization, env.verifyToken).status, None,
                                        Text(RequireAuth(req.authorization, env.verifyToken).text)), w)
    ensures out.world.users != w.users ==> !Protected(r)
    ensures !r.CreateRoute? ==> out.world.(users := w.users) == w
    ensures out.world.events != w.events ==> r.CreateRoute? && out.response.status == 201
  {
    match r
    case SignUpRoute => SignUp(w, req, env, db)
    case LogInRoute => LogIn(w, req, env, db)
    case CreateRoute(m) => Create(m, w, req, env, db)
    case ListBloodPressureRoute => ListBloodPressure(w, req, env, db)
    case ListSpO2Route => ListAll(SpO2, w, req, env, db)
    case ListWeightRoute => ListAll(Weight, w, req, env, db)
  }

  /** A protected route without an `Authorization` header is answered with
      401 and leaves the world as it was, whatever the body holds. */
  lemma MissingHeaderUnauthorized(r: Route, w: World, req: Request, env: Env, db: Storage.Ops)
    requires Protected(r)
    requires req.authorization.None?
    ensures Handle(r, w, req, env, db) == Outcome(Response(401, None, Text("Unauthorized")), w)
  {
  }

  /** A protected route whose token the verifier refuses is answered with
      403 and leaves the world as it was. */
  lemma RefusedTokenForbidden(r: Route, w: World, req: Request, env: Env, db: Storage.Ops, scheme: string, token: string)
    requires Protected(r)
    requires ' ' !in scheme && ' ' !in token
    requires req.authorization == Some(scheme + " " + token)
    requires env.verifyToken(token).None?
    ensures Handle(r, w, req, env, db) == Outcome(Response(403, None, Text("Forbidden")), w)
  {
    BearerHeaderAdmits(scheme, token, env.verifyToken);
  }

  /** A handler that only adds users keeps the invariant when it keeps ids
      and emails unique. */
  lemma UsersOnlyPreservesWf(w: World, w': World)
    requires Wf(w)
    requires w'.(users := w.users) == w
    requires IdsUnique(w'.users) && EmailsUnique(w'.users)
    ensures Wf(w')
  {
    assert forall m: Metric :: Collection(w', m) == Collection(w, m);
  }

  /** Appending one reading to its own collection, numbered next and
      broadcast once under its kind, keeps the invariant. */
  lemma AppendReadingPreservesWf(w: World, w': World, m: Metric, rec: Reading)
    requires Wf(w)
    requires rec.Kind() == m && rec.id == |Collection(w, m)|
    requires Collection(w', m) == Collection(w, m) + [rec]
    requires forall k: Metric :: k != m ==> Collection(w', k) == Collection(w, k)
    requires w'.events == w.events + [Event(EventName(m), rec)] && w'.users == w.users
    ensures Wf(w')
  {
    forall k: Metric, i | 0 <= i < |Collection(w', k)|
      ensures Collection(w', k)[i].Kind() == k && Collection(w', k)[i].id == i
    {
      if k == m && i == |Collection(w, m)| {
        assert Collection(w', k)[i] == rec;
      } else {
        assert Collection(w', k)[i] == Collection(w, k)[i];
      }
    }
    forall k: Metric
      ensures Broadcast(w'.events, k) == Collection(w', k)
    {
      BroadcastAppend(w.events, Event(EventName(m), rec), k);
      EventNamesDistinct(m, k);
    }
  }

  /** Saving a reading keeps the invariant: it gets the next id of its own
      collection and is broadcast once, under its own kind. */
  lemma CreatePreservesWf(m: Metric, w: World, req: Request, env: Env, db: Storage.Ops)
    requires Wf(w)
    ensures Wf(Create(m, w, req, env, db).world)
  {
    var out := Create(m, w, req, env, db);
    if out.response.status == 201 {
      AppendReadingPreservesWf(w, out.world, m, out.response.body.record);
    }
  }

  /** Every handler keeps the world invariant; in particular every saved
      reading is broadcast exactly once, in save order, under its own kind. */
  lemma HandlePreservesWf(r: Route, w: World, req: Request, env: Env, db: Storage.Ops)
    requires Wf(w)
    ensures Wf(Handle(r, w, req, env, db).world)
  {
    match r
    case SignUpRoute => UsersOnlyPreservesWf(w, SignUp(w, req, env, db).world);
    case LogInRoute => UsersOnlyPreservesWf(w, LogIn(w, req, env, db).world);
    case CreateRoute(m) => CreatePreservesWf(m, w, req, env, db);
    case ListBloodPressureRoute =>
    case ListSpO2Route =>
    case ListWeightRoute =>
  }

  /** Signing up twice with the same Google identity: the second attempt is
      refused and changes nothing. */
  lemma SignUpTwiceRefused(w: World, req: Request, env: Env, db1: Storage.Ops, db2: Storage.Ops)
    requires SignUp(w, req, env, db1).response.status == 201
    requires db2.find.Succeeds?
    ensures var w1 := SignUp(w, req, env, db1).world;
            SignUp(w1, req, env, db2) == Outcome(Response(400, None, Error(UserExists)), w1)
  {
    var out := SignUp(w, req, env, db1);
    var u := out.response.body.user;
    assert out.world.users[|w.users|] == u;
  }

  /** Logging in twice with the same Google identity: the second login finds
      the user the first one returned and adds no one. */
  lemma LogInTwiceSameUser(w: World, req: Request, env: Env, db1: Storage.Ops, db2: Storage.Ops)
    requires LogIn(w, req, env, db1).response.status == 200
    requires db2.find.Succeeds?
    ensures var first := LogIn(w, req, env, db1);
            var second := LogIn(first.world, req, env, db2);
            && second.world == first.world
            && second.response.status == 200
            && second.response.body.user == first.response.body.user
  {
    var first := LogIn(w, req, env, db1);
    var email := Claims(req, "idToken", env).value.email;
    if FindByEmail(w.users, email).None? {
      var u := first.response.body.user;
      assert first.world.users == w.users + [u];
      assert first.world.users[|w.users|] == u;
      assert FindByEmail(first.world.users, email) == Some(u) by {
        var r := FindByEmail(first.world.users, email);
        assert r.Some?;
        var j :| 0 <= j < |first.world.users| && first.world.users[j] == r.value;
        assert j == |w.users|;
      }
    }
  }

  /** With no query, a collection of at most ten readings is listed whole,
      in timestamp order, on page 1, with no more pages. */
  lemma DefaultListingShowsAll(w: World, list: Request, env: Env, db: Storage.Ops)
    requires list.query == map[]
    requires RequireAuth(list.authorization, env.verifyToken).Admitted?
    requires db.find.Succeeds?
    requires |w.bloodPressure| <= 10
    ensures var listed := ListBloodPressure(w, list, env, db).response;
            && listed.status == 200
            && listed.body.data == SortByTime(w.bloodPressure)
            && !listed.body.hasMore
  {
    assert PageOf(list) == 1 && LimitOf(list) == 10;
    var listed := ListBloodPressure(w, list, env, db).response;
    assert |listed.body.data| == |SortByTime(w.bloodPressure)|;
  }

  /** A negative page size makes `hasMore` lie: `?limit=-5` on an empty
      collection lists page 1 with no readings and still reports that more
      follow, since `1 * -5 < 0`. */
  lemma NegativeLimitHasMoreOnEmpty(w: World, list: Request, env: Env, db: Storage.Ops)
    requires list.query == map["limit" := "-5"]
    requires RequireAuth(list.authorization, env.verifyToken).Admitted?
    requires db.find.Succeeds?
    requires w.bloodPressure == []
    ensures var listed := ListBloodPressure(w, list, env, db).response;
            && listed.status == 200
            && listed.body.data == []
            && listed.body.hasMore
  {
    MinusFiveLimit(list);
    assert PageOf(list) == 1 && SkipOf(list) == 0;
    var listed := ListBloodPressure(w, list, env, db).response;
    assert listed == PageResponse([], 1, -5);
  }

  /** `?limit=-5` reads as a page size of -5. */
  lemma MinusFiveLimit(list: Request)
    requires list.query == map["limit" := "-5"]
    ensures LimitOf(list) == -5
  {
    ParseIntOrOfText(-5, 10);
    assert DigitChar(5) == '5';
    assert IntToText(-5) == "-" + [DigitChar(5)] == "-5";
    assert Query(list, "limit") == Some(IntToText(-5));
  }

  /** Creating a blood-pressure reading without a timestamp and then listing
      the first page with the default page size: while the collection has
      at most ten readings, the page holds all of them, the new one
      included, and `hasMore` is false. */
  lemma CreateThenList(w: World, create: Request, list: Request, env: Env, db1: Storage.Ops, db2: Storage.Ops)
    requires Create(BloodPressure, w, create, env, db1).response.status == 201
    requires "timestamp" !in create.body
    requires list.query == map[]
    requires RequireAuth(list.authorization, env.verifyToken).Admitted?
    requires db2.find.Succeeds?
    requires |w.bloodPressure| < 10
    ensures var made := Create(BloodPressure, w, create, env, db1);
            var listed := ListBloodPressure(made.world, list, env, db2).response;
            && listed.status == 200
            && made.response.body.record in listed.body.data
            && made.response.body.record.timestamp == env.now
            && |listed.body.data| == |w.bloodPressure| + 1
            && !listed.body.hasMore
  {
    var made := Create(BloodPressure, w, create, env, db1);
    var rec := made.response.body.record;
    var all := made.world.bloodPressure;
    assert all == w.bloodPressure + [rec];
    DefaultListingShowsAll(made.world, list, env, db2);
    assert rec in multiset(all);
    assert rec in multiset(SortByTime(all));
  }
}

=== FILE: storage.dfy ===
/** The document store is not modelled; what each request observes from it
    is an input. A store operation either completes or fails with the
    message the driver reports. */
module Storage {

  datatype Op = Succeeds | Fails(message: string)

  /** The outcome of the reads (`findOne`, `find`, `countDocuments`,
      `findById`) and of the write (`save`) that one request performs. */
  datatype Ops = Ops(find: Op, save: Op)
}

=== FILE: users.dfy ===
/** The user collection. Its order is insertion order, and a lookup returns
    the first matching user, as `User.findOne` and `User.findById` do on an
    unindexed collection. Document ids are drawn from a counter above every
    id in use, which stands for the store's fresh object ids. */
module Users {
  import opened Wrappers

  type UserId = nat

  datatype User = User(id: UserId, fullname: string, email: string, googleId: Option<string>)

  type Directory = seq<User>

  /** The position of the first user satisfying `p`. */
  function FindIndex(d: Directory, p: User -> bool): (r: Option<nat>)
    ensures r.None? <==> forall i :: 0 <= i < |d| ==> !p(d[i])
    ensures r.Some? ==> r.value < |d| && p(d[r.value])
    ensures r.Some? ==> forall j :: 0 <= j < r.value ==> !p(d[j])
  {
    if |d| == 0 then None
    else if p(d[0]) then Some(0)
    else match FindIndex(d[1..], p)
      case None => None
      case Some(k) => Some(k + 1)
  }

  function FindFirst(d: Directory, p: User -> bool): (r: Option<User>)
    ensures r.None? <==> forall i :: 0 <= i < |d| ==> !p(d[i])
    ensures r.Some? ==> r.value in d && p(r.value)
  {
    match FindIndex(d, p)
    case None => None
    case Some(k) => Some(d[k])
  }

  /** `User.findOne({ email })`. */
  function FindByEmail(d: Directory, email: string): (r: Option<User>)
    ensures r.None? <==> forall i :: 0 <= i < |d| ==> d[i].email != email
    ensures r.Some? ==> r.value in d && r.value.email == email
  {
    FindFirst(d, (u: User) => u.email == email)
  }

  /** `User.findOne({ googleId })`. */
  function FindByGoogleId(d: Directory, googleId: string): (r: Option<User>)
    ensures r.None? <==> forall i :: 0 <= i < |d| ==> d[i].googleId != Some(googleId)
    ensures r.Some? ==> r.value in d && r.value.googleId == Some(googleId)
  {
    FindFirst(d, (u: User) => u.googleId == Some(googleId))
  }

  /** `User.findById(id)`. */
  function FindById(d: Directory, id: UserId): (r: Option<User>)
    ensures r.None? <==> forall i :: 0 <= i < |d| ==> d[i].id != id
    ensures r.Some? ==> r.value in d && r.value.id == id
  {
    FindFirst(d, (u: User) => u.id == id)
  }

  /** An id that no user in the directory has. */
  function FreshId(d: Directory): (r: UserId)
    ensures forall i :: 0 <= i < |d| ==> d[i].id < r
  {
    if |d| == 0 then 0
    else
      var later := FreshId(d[1..]);
      if later <= d[0].id then d[0].id + 1 else later
  }

  predicate IdsUnique(d: Directory) {
    forall i, j :: 0 <= i < j < |d| ==> d[i].id != d[j].id
  }

  predicate EmailsUnique(d: Directory) {
    forall i, j :: 0 <= i < j < |d| ==> d[i].email != d[j].email
  }

  predicate GoogleIdsUnique(d: Directory) {
    forall i, j :: 0 <= i < j < |d| && d[i].googleId.Some? ==> d[i].googleId != d[j].googleId
  }

  /** `new User({...}).save()` when the save succeeds: the new user gets a
      fresh id and is appended; every existing user keeps its place. */
  function Register(d: Directory, fullname: string, email: string, googleId: Option<string>): (r: (Directory, User))
    ensures r.0 == d + [r.1]
    ensures r.1.fullname == fullname && r.1.email == email && r.1.googleId == googleId
    ensures FindById(d, r.1.id).None?
    ensures IdsUnique(d) ==> IdsUnique(r.0)
  {
    var u := User(FreshId(d), fullname, email, googleId);
    (d + [u], u)
  }

  /** With unique ids, looking a user up by its own id gives that user back. */
  lemma FindOwnId(d: Directory, u: User)
    requires IdsUnique(d)
    requires u in d
    ensures FindById(d, u.id) == Some(u)
  {
    var r := FindById(d, u.id);
    var k :| 0 <= k < |d| && d[k] == u;
    assert r.Some?;
    var j :| 0 <= j < |d| && d[j] == r.value;
    if j != k {
      if j < k {
        assert d[j].id != d[k].id;
      } else {
        assert d[k].id != d[j].id;
      }
    }
  }

  /** With unique emails, the user found by an email is the only user with it. */
  lemma FindOwnEmail(d: Directory, u: User)
    requires EmailsUnique(d)
    requires u in d
    ensures FindByEmail(d, u.email) == Some(u)
  {
    var r := FindByEmail(d, u.email);
    var k :| 0 <= k < |d| && d[k] == u;
    assert r.Some?;
    var j :| 0 <= j < |d| && d[j] == r.value;
    if j != k {
      if j < k {
        assert d[j].email != d[k].email;
      } else {
        assert d[k].email != d[j].email;
      }
    }
  }
}

=== FILE: wrappers.dfy ===
/** Failure-carrying datatypes shared by the model: an optional value (a
    JavaScript `undefined`/`null` versus a present value) and a result that
    either carries a value or the message of the error that was thrown. */
module Wrappers {

  datatype Option<T> = None | Some(value: T)

  datatype Result<T> = Ok(value: T) | Err(message: string)
}
